=== FILE: README.md ===
# awskmsluks in Dafny

A model of the key handling of `awskmsluks`, a small Go command that keeps the
passphrase of a LUKS volume under AWS KMS envelope encryption.

- `-format` asks KMS for a fresh 1024-byte data key. The key is bound to an
  encryption context made of the host's FQDN, a production flag and a new
  volume UUID. The command uploads the record, with the plaintext blanked, to
  an S3 bucket. It writes the same blanked record to
  `/etc/awskmsluks/keys/<FQDN>/<UUID>.json`. Finally it prints the base64
  passphrase and a reminder to set the volume's UUID.
- `-uuid <UUID>` reads that file back. It has KMS decrypt the ciphertext under
  the same encryption context and prints the base64 passphrase.
- `devFromUUID` resolves a UUID to its block device through
  `/dev/disk/by-uuid/`.

Everything outside the program is an oracle carried in a record:
- KMS, S3, ARN parsing and SDK configuration (`Aws.Services`);
- the local filesystem with a fault oracle (`LocalFs`);
- the hostname, `loadConfig`, UUID generation and the clock (`Cli.World`);
- `os.Readlink` and `os.Getwd` (parameters of `Dev.DevFromUuid`).

In the oracles and in `Keys`, a Go `(T, error)` call whose value the code
uses is a `Result`, and a call whose value it ignores, like an `error`-only
return, is an `Outcome`. `Aws.Services.arnRegion` is a
`Result` carrying the region or the parse error. The SDK configuration, the S3
upload and each local file operation are `Outcome`s, because the code only
looks at their error. Three functions of the program are modelled differently:
- `devFromUUID` returns a path and an error together. Its `Dev.Resolved` pair
  keeps both as they are, because dev.go:17 hands on `os.Readlink`'s path and
  error side by side instead of choosing one of them.
- `formatDev` and `openDev` return only an error. Their `Cli.Run` records the
  error in `err` next to what the run printed and the files it left, because
  those are what a caller observes besides the error.

Modules, one per file:

| module | file | models |
|---|---|---|
| `Results` | results.dfy | `Option`, `Result`, `Outcome` |
| `Base64` | base64.dfy | `base64.StdEncoding` (section 4 of RFC 4648, with Go's decoder behaviour) |
| `Record` | record.dfy | `key`, `encryptionContext`, `dataKey`, `toMap`, and the JSON shape with `omitempty` |
| `Aws` | aws.dfy | the requests sent to KMS and S3, and the service oracles |
| `LocalFs` | localfs.dfy | files as a map, plus a fault oracle per operation and path |
| `Keys` | keys.dfy | `newDataKey`, `archive`, `store`, `decrypt` |
| `FilePath` | filepath.dfy | `filepath.IsAbs`, `Clean`, `Join`, `Abs` on Unix |
| `Dev` | dev.dfy | `devFromUUID` |
| `Cli` | cli.dfy | `main`, `formatDev`, `openDev` |

What the program does at its edges:
- It has only the flags `-format` and `-uuid`.
- It never runs `cryptsetup` itself. It prints the passphrase on standard
  output, and after a format it prints the `cryptsetup luksUUID` command on
  standard error for the operator to run.
- Without either flag it panics; there is no usage text.

Go's base64 decoder behaves as follows, and the model does the same:
- It skips `\r` and `\n` anywhere in the input.
- It requires padding to a multiple of four characters.
- It rejects padding anywhere but at the end.
- It ignores the unused low bits of a padded final group.

So `Base64.EncodeDecode` needs a canonical input. `Base64.DecodeEncode` holds for every byte string.
For any accepted text, `Base64.DecodeValue` says which bytes come back: the ones
whose encoding is the text without its line breaks and with its unused bits cleared.

## Model

| member | source | states |
|---|---|---|
| Record.NewEncryptionContext | key.go:41-47 | the FQDN, UUID and production flag land in their own fields, although the parameters come in a different order |
| Record.ToMap | key.go:49-55 | the KMS context map has exactly the keys `fqdn`, `production` and `uuid`, and `production` is `"true"` or `"false"` |
| Record.FromMapToMap | key.go:49-55 | every field of the context can be read back from its map |
| Record.ToMapFromMap | key.go:49-55 | a three-key map that reads back as a context is exactly that context's map |
| Record.ToMapInjective | key.go:49-55 | distinct contexts give distinct KMS context maps |
| Record.Redact | key.go:127-128 | the copy has an empty `Plain`, and its context, ARN, ciphertext and creation time are the original's |
| Record.RedactIdempotent | key.go:127-128 | blanking a blanked record changes nothing |
| Record.Marshal | key.go:36 | the JSON has no `Plain` member exactly when `Plain` is empty (`omitempty`) |
| Record.UnmarshalMarshal | key.go:23-39 | unmarshalling a marshalled record gives the same record |
| Record.MarshalFromDocument | key.go:23-39 | a document without an explicitly empty `Plain` is what its record marshals to |
| Record.Unmarshal | main.go:88-91 | unmarshalling fails exactly on contents that are not a key document. Otherwise every member sets its field, and an absent `Plain` leaves the field empty |
| Record.RedactedDocument | key.go:127-142 | a redacted record's document has no `Plain`, and loading it gives the record with `Plain` empty |
| Base64.CharToIndex | key.go:163 | a character of the alphabet decodes to the sextet that encodes back to it |
| Base64.IndexToCharInverse | key.go:92-93 | every sextet's character decodes back to that sextet |
| Base64.CharDigitInverse | key.go:163 | every digit, padding included, reads back from its character |
| Base64.DigitsChars | key.go:163 | reading back written digits gives the digits |
| Base64.CharsDigits | key.go:163 | a text that reads as digits is written back identically |
| Base64.EncodeDigits | key.go:92-93 | the encoding has `4 * ceil(n / 3)` digits |
| Base64.DecodeGroupEncodeGroup | key.go:92-93 | a full three-byte group survives encoding and decoding |
| Base64.EncodeGroupDecodeGroup | key.go:163 | four sextets decode to three bytes that encode back to them |
| Base64.DecodeDigitsEncodeDigits | key.go:92-93 | decoding the digits of any byte string gives it back |
| Base64.StripNewlines | key.go:163 | the decoder's view of the text has no `\r` or `\n` |
| Base64.StripNewlinesDrops | key.go:163 | a lone `\r` or `\n` is dropped |
| Base64.StripNewlinesConcat | key.go:163 | stripping a text is stripping its parts and concatenating them, so every other character is kept in order |
| Base64.Encode | key.go:92-93 | the text has `4 * ceil(n / 3)` characters |
| Base64.DecodeEncode | key.go:92-93 | `DecodeString(EncodeToString(b)) == b` for every byte string |
| Base64.EncodeInjective | key.go:92-93 | distinct byte strings encode to distinct texts |
| Base64.Decode | key.go:163-166 | `DecodeString` accepts a text exactly when, with line breaks removed, it is well-formed padded base64; the bytes it returns are stated by Base64.DecodeValue |
| Base64.EncodeCanonical | key.go:92-93 | every encoding is canonical: padded, with zero unused bits |
| Base64.EncodeDecode | key.go:163 | a canonical text decodes, and the bytes encode back to the same text |
| Base64.DecodeStripped | key.go:163 | line breaks make no difference to whether a text decodes or to what it decodes to |
| Base64.DecodeLastIgnoresTwo | key.go:163 | in a final group of three characters and a pad, the two unused low bits of the third character do not change the bytes |
| Base64.DecodeLastIgnoresOne | key.go:163 | in a final group of two characters and two pads, the four unused low bits of the second character do not change the byte |
| Base64.ClearLastDecodes | key.go:163 | a well-formed final group decodes like the same group with its unused bits cleared, and the cleared group is canonical |
| Base64.ClearLeftoverDecodes | key.go:163 | well-formed digits decode like the same digits with the final group's unused bits cleared, and the cleared digits are canonical |
| Base64.DecodeValue | key.go:163-166 | for every text `DecodeString` accepts, the returned bytes encode to that text without line breaks and with unused bits cleared; with EncodeInjective this fixes the bytes |
| Base64.EncodeVectorF | key.go:92-93 | `EncodeToString("f") == "Zg=="`, the test vector of section 10 of RFC 4648 |
| Base64.EncodeVectorFo | key.go:92-93 | `EncodeToString("fo") == "Zm8="` |
| Base64.EncodeVectorFoo | key.go:92-93 | `EncodeToString("foo") == "Zm9v"` |
| Base64.EncodeVectorFoob | key.go:92-93 | `EncodeToString("foob") == "Zm9vYg=="` |
| Base64.DecodeVectorLineBreak | key.go:163 | `DecodeString("Zm\n9v")` gives `"foo"`: a line break inside the text is skipped |
| Base64.CanonicalIsEncoding | key.go:92-93 | a canonical text is the encoding of the bytes it decodes to, so canonical text and its decoding together fix the text |
| LocalFs.Read | main.go:84 | a read succeeds exactly when the path exists and no fault is injected, and it returns the file's contents. A missing file without a fault is reported as not existing, and an injected fault is reported with its own error |
| Keys.GenerateRequest | key.go:67-81 | the request goes to the ARN's region, carries the ARN as key id, asks for 1024 bytes, and sends exactly the context's three-key map |
| Keys.NewDataKey | key.go:57-98 | an ARN parse error, a config error and a UUID error each fail with their own error, in that order. Past them, the call succeeds exactly when KMS does, and a KMS error is passed on. On success the record keeps the given FQDN, production flag, UUID, ARN and time. Its `Plain` and `Encrypted` are canonical base64 of the plaintext and ciphertext KMS returned for that very request |
| Keys.ArchiveObjectKey | key.go:118 | the object key is the FQDN, a `/`, then the UUID and `.json` |
| Keys.ArchiveObjectKeyInjective | key.go:118 | for host names without `/`, distinct host and volume pairs get distinct object keys |
| Keys.ArchiveRequest | key.go:100-120 | the upload goes to the given bucket under the key `FQDN/UUID.json`, and its body has no `Plain` and loads as the redacted record |
| Keys.Archive | key.go:100-125 | archiving succeeds exactly when the upload of the redacted record succeeds, and it otherwise reports the upload's error |
| Keys.StoreFile | key.go:137 | the local file is the store path followed by the S3 object key, inside the FQDN's directory |
| Keys.Store | key.go:127-147 | a directory or open fault fails with its own error before any file changes. A write fault fails with the write error and leaves the file truncated. Success writes the redacted record to `path + FQDN + "/" + UUID + ".json"`, which loads back with `Plain` empty. No other file is touched |
| Keys.DecryptRequest | key.go:149-171 | failures come in source order: ARN parse error, config, then base64. Past the ARN and config, a request is built exactly when the ciphertext decodes. A request carries the ARN's region, the decoded ciphertext, and exactly the record's three-key context map |
| Keys.Decrypt | key.go:149-179 | a request error, or else a KMS error, is returned with the record unchanged. On success only `Plain` changes, to canonical base64 of exactly what KMS returned |
| Keys.DecryptMatchesGeneration | key.go:75-93 | a generated record, or a copy with the same context, ARN and ciphertext, is decrypted with the ciphertext and context map sent at generation |
| Keys.ContextBinding | key.go:168-171 | a record whose context differs in any field sends KMS a different context map |
| Keys.DecryptRejectsNonBase64 | key.go:163-166 | malformed ciphertext gives the base64 error and leaves `Plain` as it was |
| Keys.ArchiveAndStoreAgree | key.go:118-137 | the local file is the store path followed by the S3 object key `FQDN/UUID.json` |
| FilePath.IsAbsSplit | dev.go:14 | a path is rooted exactly when it splits into an empty first segment followed by more |
| FilePath.JoinSplit | dev.go:15 | splitting a path on `/` and joining the segments gives the path back |
| FilePath.SplitJoin | dev.go:15 | segments without separators survive joining and splitting |
| FilePath.JoinConcat | dev.go:15 | joining two runs of segments puts a single separator between them |
| FilePath.Clean | dev.go:15 | a cleaned path is never empty |
| FilePath.CleanAbs | dev.go:15 | cleaning keeps a path rooted exactly when it was rooted |
| FilePath.CleanRootedNormal | dev.go:15 | a rooted path cleans to segments that are neither empty, nor `.`, nor `..` |
| FilePath.CleanRootedSegments | dev.go:15 | a rooted path cleans to the fold of its segments |
| FilePath.CleanRootedConcat | dev.go:15 | a rooted directory followed by a relative path cleans to the fold of both runs of segments |
| FilePath.CleanIdempotent | dev.go:15 | cleaning a cleaned path changes nothing |
| FilePath.Join | dev.go:15 | a non-empty first path gives `Clean(a + "/" + b)`; an empty first path gives `Clean(b)`, or `""` when both are empty. A result of paths not both empty is clean |
| FilePath.JoinRooted | dev.go:15 | joining onto a rooted path gives a rooted path |
| FilePath.Abs | dev.go:15 | a rooted path is only cleaned, and the working directory is never consulted. Otherwise a failing working directory is reported, and a working directory that is known gives the path joined onto it. A non-empty result is clean |
| Dev.DevByUuidPathText | dev.go:9 | the symlink directory is `/dev/disk/by-uuid/` |
| Dev.CleanSymlinkDir | dev.go:9-15 | the symlink directory cleans to `/dev/disk/by-uuid` |
| Dev.LinkPath | dev.go:13 | the symlink read for a UUID is rooted, and is the symlink directory followed by the UUID |
| Dev.DevFromUuid | dev.go:12-18 | an absolute link target is returned unchanged. A relative target yields the clean rooted path of the symlink directory plus the target. A failed readlink yields the symlink directory without its trailing separator, and no error |
| Dev.DevFromUuidIgnoresWd | dev.go:14-15 | the working directory never affects the result |
| Dev.CleanUnderSymlinkDir | dev.go:14-15 | a relative target under the symlink directory cleans to the fold of the directory's segments followed by the target's |
| Dev.DevFromUuidRelativeExample | dev.go:14-15 | the link target `../../sdb1` resolves to `/dev/sdb1` |
| Dev.DevFromUuidDropsError | dev.go:13-15 | as written, a failed readlink returns the symlink directory and no error |
| Dev.DevFromUuidChecked | dev.go:12-18 | corrected: a failed readlink returns `""` and its error; otherwise the result is the original's |
| Dev.DevFromUuidCheckedReportsFailure | dev.go:12-18 | corrected: an error comes back exactly when the symlink cannot be read, and every other result is rooted |
| Cli.KeyPath | main.go:82 | the file `openDev` reads for a host and volume is the file `store(dirRoot + keyStore)` writes for any record of that host and volume |
| Cli.FormatDev | main.go:38-73 | a failed hostname lookup stops after that step; a failed config load stops after it; a failed key generation stops after it, each with its own error. With a key, the run continues as `Publish`. Any failed run prints nothing, and local files change only once the store step ran. Success used a generated UUID, and the reminder on standard error names it |
| Cli.Publish | main.go:57-72 | an archive failure stops the run there, with no file changed. A store failure stops it there, with the files `store` left. Otherwise the run succeeds with the stored files, prints the key's base64 passphrase, and the reminder names the key's UUID |
| Cli.OpenDev | main.go:75-98 | a failed hostname lookup, read, parse or decrypt each stops the run right after that step, with that step's error; read and parse errors name the path `/etc/awskmsluks/keys/FQDN/UUID.json`. Nothing is printed on failure, no reminder is printed, and no file changes. On success it prints the decrypted record's `Plain`: canonical base64 of what KMS decrypted |
| Cli.Main | main.go:17-36 | usage fails exactly when neither flag is given, and then no step runs. With `-format` the run is `formatDev`'s; otherwise with `-uuid` it is `openDev`'s for that UUID, which changes no file |
| Cli.FormatPrefixAvoids | main.go:38-73 | no prefix of the format pipeline reads, parses or decrypts a stored key |
| Cli.OpenPrefixAvoids | main.go:75-98 | no prefix of the open pipeline loads the configuration, generates, archives or stores a key |
| Cli.FormatNeverOpens | main.go:25-29 | a format run never reads or decrypts a stored key |
| Cli.OpenNeverFormats | main.go:30-34 | an open run never generates, archives or stores a key |
| Cli.FormatIgnoresUuid | main.go:25-35 | with `-format` the value of `-uuid` makes no difference |
| Cli.OpenPathIsStorePath | main.go:82 | the file `openDev` reads is the file `store(dirRoot + keyStore)` writes for that FQDN and UUID |
| Cli.PathExample | main.go:11-15 | host `host1` and volume `abc-123` use `/etc/awskmsluks/keys/host1/abc-123.json` locally and `host1/abc-123.json` in S3 |
| Cli.FormatDevOutcome | main.go:51-72 | a successful format has uploaded and stored the redacted record, and the reminder names the generated UUID. The printed passphrase decodes to the plaintext KMS generated |
| Cli.FormatThenOpen | main.go:38-98 | suppose KMS decrypts the generated ciphertext under its context to the generated plaintext, and no upload or file operation fails. Then opening the formatted volume succeeds and prints the passphrase the format printed |

## Left out

- Keys.NewDataKey: a failing call returns only its error. The empty `key{}` Go returns beside it is not represented.
- Keys.NewDataKey: the KMS plaintext is whatever the oracle returns. That it has the requested 1024 bytes is a promise of KMS, not of this code.
- Keys.Archive: `LoadDefaultAWSConfig` is called, but its error is overwritten before anyone checks it. The uploader's configuration is part of the upload oracle.
- Keys.Archive: the `MarshalIndent` failure branch is not modelled, and neither is the one in Keys.Store; a record of strings, a bool and a time always marshals while `Created` is within the years 0 to 9999, as `time.Now()` is.
- Keys.Store: the file modes (0600 for the directory, 0666 for the file) and directories as filesystem entries are not modelled. A failed write is modelled as an empty file, not as a partial one. The error of the deferred `Close` is ignored, as in the source.
- Record.Marshal: JSON is a record with an optional `Plain`, not the bytes `MarshalIndent` produces. Any byte string `json.Unmarshal` rejects is `Garbage`.
- Record: strings are Unicode text. Go strings holding invalid UTF-8, which `json.Marshal` rewrites to U+FFFD, are not modelled. Host names and UUIDs are ASCII.
- Record: `Created` is an opaque time value; `time.Time.MarshalJSON`'s error for a year outside 0 to 9999 is not modelled.
- LocalFs: paths are compared as strings. Path aliasing (`//`, `.`, `..`, symlinks) is not modelled, so `Keys.Store`'s "every other entry unchanged" is per spelling of a path.
- Base64.Decode: the error carries no offset; `CorruptInputError`'s position is dropped.
- Error texts: each error message is a constructor, not a formatted string. The `panic` in `main` is the run's `err` field. `json.Unmarshal`'s error is the single `SyntaxError`.
- Cli.FormatDev: the reminder printed on standard error is modelled as the UUID it names. `Cli.ReminderText` gives its text but carries no contract.
- `loadConfig` (config.go) is an oracle from path to configuration. Flag parsing is replaced by a `Flags` record.
- Time and UUIDs: `time.Now().UTC()` and `uuid.GenerateUUID` are inputs of a run.
- Oracles are deterministic. For example, `LoadDefaultAWSConfig` gives the same answer every time it is called within a run.
- FilePath: Unix only. Volume names and the Windows separator are not modelled.
- FilePath.Abs: the cleanliness of the result is stated only for a non-empty result. An empty working directory joined with an empty path gives `""`, as Go's `Join` does.
- The program never formats, relabels or unlocks a volume itself; it only prints the passphrase and the `cryptsetup luksUUID` command, so no `cryptsetup` step is modelled.

## Findings

| source | as written | input that shows it | evidently intended | confidence | as-written member | corrected member |
|---|---|---|---|---|---|---|
| dev.go:13-17 | when `os.Readlink` fails, its empty target is not absolute, so `filepath.Abs` runs and its nil error replaces the readlink error | any UUID with no symlink under `/dev/disk/by-uuid/`: the result is `("/dev/disk/by-uuid", nil)` | return the readlink error | medium, not executed | Dev.DevFromUuidDropsError | Dev.DevFromUuidChecked |

=== FILE: aws.dfy ===
/**
  The AWS services key.go talks to, as oracles: each field answers one kind of
  SDK call. Only the inputs key.go builds are modelled; what the services do
  with them is whatever the oracle says.
 */
module Aws {
  import opened Results
  import Base64
  import Record

  /** `kms.GenerateDataKeyInput`, together with the region the client was configured for. */
  datatype GenerateDataKeyInput = GenerateDataKeyInput(
    region: string,
    encryptionContext: map<string, string>,
    keyId: string,
    numberOfBytes: int)

  /** `kms.GenerateDataKeyOutput`. */
  datatype GenerateDataKeyOutput = GenerateDataKeyOutput(ciphertextBlob: Base64.Bytes, plaintext: Base64.Bytes)

  /** `kms.DecryptInput`, together with the region the client was configured for. */
  datatype DecryptInput = DecryptInput(
    region: string,
    ciphertextBlob: Base64.Bytes,
    encryptionContext: map<string, string>)

  /** `s3manager.UploadInput`. */
  datatype UploadInput = UploadInput(bucket: string, key: string, body: Record.Document)

  /**
    The answers of the outside world: `awsarn.Parse` (the region of a
    well-formed ARN, or the parse error), `external.LoadDefaultAWSConfig`
    (whether it failed), the KMS `GenerateDataKey` and `Decrypt` requests (the
    decrypted plaintext), and the S3 upload (whether it failed).
   */
  datatype Services = Services(
    arnRegion: string -> Result<string, string>,
    config: Outcome<string>,
    generateDataKey: GenerateDataKeyInput -> Result<GenerateDataKeyOutput, string>,
    decrypt: DecryptInput -> Result<Base64.Bytes, string>,
    upload: UploadInput -> Outcome<string>)
}

=== FILE: base64.dfy ===
/**
  The standard base64 encoding of section 4 of RFC 4648 (alphabet of table 1,
  `=` padding), as Go's `base64.StdEncoding` applies it: `EncodeToString`
  always pads, and `DecodeString` skips carriage returns and line feeds
  anywhere in its input, demands padding, rejects any other character outside
  the alphabet, and ignores non-zero bits left over in a padded final quantum.

  Both directions go through a layer of digits (a sextet or the pad), so that
  the arithmetic on octets and the character table are reasoned about apart.
 */
module Base64 {
  import opened Results

  /** An octet, Go's `byte`. */
  type Byte = b: int | 0 <= b < 256

  type Bytes = seq<Byte>

  /** The value of one base64 character. */
  type Sextet = v: int | 0 <= v < 64

  /** One position of an encoding: a sextet, or the pad character. */
  datatype Digit = Sym(v: Sextet) | PadDigit

  const Pad: char := '='

  /** Why `DecodeString` refused its input (Go also reports an offset). */
  datatype DecodeError = CorruptInput

  // ------------------------------------------------------------ the alphabet

  /** Table 1 of RFC 4648. */
  function IndexToChar(v: Sextet): char
  {
    if v < 26 then ('A' as int + v) as char
    else if v < 52 then ('a' as int + (v - 26)) as char
    else if v < 62 then ('0' as int + (v - 52)) as char
    else if v == 62 then '+'
    else '/'
  }

  predicate IsAlphabet(c: char) {
    ('A' <= c <= 'Z') || ('a' <= c <= 'z') || ('0' <= c <= '9') || c == '+' || c == '/'
  }

  /** The inverse of table 1: the character it maps to is the one it came from. */
  function CharToIndex(c: char): (v: Sextet)
    requires IsAlphabet(c)
    ensures IndexToChar(v) == c
  {
    if 'A' <= c <= 'Z' then c as int - 'A' as int
    else if 'a' <= c <= 'z' then c as int - 'a' as int + 26
    else if '0' <= c <= '9' then c as int - '0' as int + 52
    else if c == '+' then 62
    else 63
  }

  lemma IndexToCharInverse(v: Sextet)
    ensures IsAlphabet(IndexToChar(v))
    ensures CharToIndex(IndexToChar(v)) == v
  {
  }

  function DigitChar(d: Digit): char
  {
    match d
    case Sym(v) => IndexToChar(v)
    case PadDigit => Pad
  }

  /** The digit a character stands for; `None` for characters outside the alphabet and pad. */
  function CharDigit(c: char): (d: Option<Digit>)
    ensures d.Some? ==> DigitChar(d.value) == c
  {
    if IsAlphabet(c) then Some(Sym(CharToIndex(c)))
    else if c == Pad then Some(PadDigit)
    else None
  }

  lemma CharDigitInverse(d: Digit)
    ensures CharDigit(DigitChar(d)) == Some(d)
  {
    if d.Sym? {
      IndexToCharInverse(d.v);
    }
  }

  /** The text spelled by a sequence of digits. */
  function Chars(ds: seq<Digit>): (s: string)
    ensures |s| == |ds|
  {
    if |ds| == 0 then "" else [DigitChar(ds[0])] + Chars(ds[1..])
  }

  /** The digits of a text, when every character is in the alphabet or is the pad. */
  function Digits(s: string): (r: Option<seq<Digit>>)
    ensures r.Some? ==> |r.value| == |s|
  {
    if |s| == 0 then Some([])
    else
      var d :- CharDigit(s[0]);
      var rest :- Digits(s[1..]);
      Some([d] + rest)
  }

  lemma {:induction false} DigitsChars(ds: seq<Digit>)
    ensures Digits(Chars(ds)) == Some(ds)
  {
    if |ds| > 0 {
      CharDigitInverse(ds[0]);
      DigitsChars(ds[1..]);
      assert Chars(ds)[1..] == Chars(ds[1..]);
      assert [ds[0]] + ds[1..] == ds;
    }
  }

  lemma {:induction false} CharsDigits(s: string)
    requires Digits(s).Some?
    ensures Chars(Digits(s).value) == s
  {
    if |s| > 0 {
      CharsDigits(s[1..]);
      var ds := Digits(s).value;
      assert ds[1..] == Digits(s[1..]).value;
      assert [s[0]] + s[1..] == s;
    }
  }

  // ---------------------------------------------------------------- octets

  /** Three octets become four sextets. */
  function EncodeGroup(b0: Byte, b1: Byte, b2: Byte): seq<Digit>
  {
    [Sym(b0 / 4), Sym((b0 % 4) * 16 + b1 / 16), Sym((b1 % 16) * 4 + b2 / 64), Sym(b2 % 64)]
  }

  /** The digits of `EncodeToString`: the last one or two octets are padded. */
  function EncodeDigits(b: Bytes): (ds: seq<Digit>)
    ensures |ds| == 4 * ((|b| + 2) / 3)
    decreases |b|
  {
    if |b| == 0 then []
    else if |b| == 1 then [Sym(b[0] / 4), Sym((b[0] % 4) * 16), PadDigit, PadDigit]
    else if |b| == 2 then [Sym(b[0] / 4), Sym((b[0] % 4) * 16 + b[1] / 16), Sym((b[1] % 16) * 4), PadDigit]
    else EncodeGroup(b[0], b[1], b[2]) + EncodeDigits(b[3..])
  }

  /** Four sextets become three octets. */
  function DecodeGroup(v0: Sextet, v1: Sextet, v2: Sextet, v3: Sextet): Bytes
  {
    [v0 * 4 + v1 / 16, (v1 % 16) * 16 + v2 / 4, (v2 % 4) * 64 + v3]
  }

  /** The final quantum: four sextets, three and a pad, or two and two pads. */
  function DecodeLast(q: seq<Digit>): Result<Bytes, DecodeError>
    requires |q| == 4
  {
    match (q[0], q[1], q[2], q[3])
    case (Sym(v0), Sym(v1), Sym(v2), Sym(v3)) => Success(DecodeGroup(v0, v1, v2, v3))
    case (Sym(v0), Sym(v1), Sym(v2), PadDigit) => Success(DecodeGroup(v0, v1, v2, 0)[..2])
    case (Sym(v0), Sym(v1), PadDigit, PadDigit) => Success(DecodeGroup(v0, v1, 0, 0)[..1])
    case _ => Failure(CorruptInput)
  }

  predicate AllSym(q: seq<Digit>) {
    forall i :: 0 <= i < |q| ==> q[i].Sym?
  }

  /** Decoding one quantum at a time; padding ends the input. */
  function DecodeDigits(ds: seq<Digit>): Result<Bytes, DecodeError>
    decreases |ds|
  {
    if |ds| == 0 then Success([])
    else if |ds| < 4 then Failure(CorruptInput)
    else if |ds| == 4 then DecodeLast(ds)
    else if AllSym(ds[..4]) then
      var rest :- DecodeDigits(ds[4..]);
      Success(DecodeGroup(ds[0].v, ds[1].v, ds[2].v, ds[3].v) + rest)
    else Failure(CorruptInput)
  }

  // ---------------------------------------------------------------- text

  /** `EncodeToString`. */
  function Encode(b: Bytes): (s: string)
    ensures |s| == 4 * ((|b| + 2) / 3)
  {
    Chars(EncodeDigits(b))
  }

  predicate IsNewline(c: char) {
    c == '\r' || c == '\n'
  }

  /** The input as the decoder sees it: carriage returns and line feeds removed. */
  function StripNewlines(s: string): (t: string)
    ensures |t| <= |s|
    ensures forall i :: 0 <= i < |t| ==> !IsNewline(t[i])
  {
    if |s| == 0 then ""
    else if IsNewline(s[0]) then StripNewlines(s[1..])
    else [s[0]] + StripNewlines(s[1..])
  }

  /**
    `DecodeString`: it accepts its input exactly when the input is well-formed
    once carriage returns and line feeds are removed.
   */
  function Decode(s: string): (r: Result<Bytes, DecodeError>)
    ensures r.Success? <==> WellFormed(StripNewlines(s))
  {
    match Digits(StripNewlines(s))
    case None => Failure(CorruptInput)
    case Some(ds) =>
      DecodeDigitsSucceedsIff(ds);
      DecodeDigits(ds)
  }

  // ------------------------------------------------- declarative well-formedness

  /** Whole quanta of sextets, where only the last quantum may end in one or two pads. */
  ghost predicate WellFormedDigits(ds: seq<Digit>) {
    && |ds| % 4 == 0
    && (forall i :: 0 <= i < |ds| - 2 ==> ds[i].Sym?)
    && (|ds| > 0 ==> ds[|ds| - 2].Sym? || (ds[|ds| - 2].PadDigit? && ds[|ds| - 1].PadDigit?))
  }

  /** Newline-free text that the decoder accepts. */
  ghost predicate WellFormed(t: string) {
    Digits(t).Some? && WellFormedDigits(Digits(t).value)
  }

  /** Well-formed digits whose padded final quantum carries no leftover bits. */
  ghost predicate CanonicalDigits(ds: seq<Digit>) {
    && WellFormedDigits(ds)
    && (|ds| > 0 && ds[|ds| - 1].PadDigit? && ds[|ds| - 2].Sym? ==> ds[|ds| - 2].v % 4 == 0)
    && (|ds| > 0 && ds[|ds| - 2].PadDigit? ==> ds[|ds| - 3].v % 16 == 0)
  }

  /** Text that `EncodeToString` can produce. */
  ghost predicate Canonical(t: string) {
    Digits(t).Some? && CanonicalDigits(Digits(t).value)
  }

  // ---------------------------------------------------------------- arithmetic

  /** Splitting a number at a bit boundary and joining it again loses nothing. */
  lemma DivModJoin(hi: int, lo: int, m: int)
    requires m == 4 || m == 16 || m == 64
    requires 0 <= lo < m
    ensures (hi * m + lo) / m == hi
    ensures (hi * m + lo) % m == lo
  {
  }

  lemma DecodeGroupEncodeGroup(b0: Byte, b1: Byte, b2: Byte)
    ensures var q := EncodeGroup(b0, b1, b2);
      DecodeGroup(q[0].v, q[1].v, q[2].v, q[3].v) == [b0, b1, b2]
  {
    DivModJoin(b0 % 4, b1 / 16, 16);
    DivModJoin(b1 % 16, b2 / 64, 4);
  }

  lemma EncodeGroupDecodeGroup(v0: Sextet, v1: Sextet, v2: Sextet, v3: Sextet)
    ensures var d := DecodeGroup(v0, v1, v2, v3);
      EncodeGroup(d[0], d[1], d[2]) == [Sym(v0), Sym(v1), Sym(v2), Sym(v3)]
  {
    var d := DecodeGroup(v0, v1, v2, v3);
    DivModJoin(v0, v1 / 16, 4);
    assert d[0] / 4 == v0 && d[0] % 4 == v1 / 16;
    DivModJoin(v1 % 16, v2 / 4, 16);
    assert d[1] / 16 == v1 % 16 && d[1] % 16 == v2 / 4;
    DivModJoin(v2 % 4, v3, 64);
    assert d[2] / 64 == v2 % 4 && d[2] % 64 == v3;
    assert (d[0] % 4) * 16 + d[1] / 16 == v1;
    assert (d[1] % 16) * 4 + d[2] / 64 == v2;
  }

  // ---------------------------------------------------------------- round trips

  lemma DecodeLastEncodeOne(b0: Byte)
    ensures DecodeLast(EncodeDigits([b0])) == Success([b0])
  {
    var v0, v1 := b0 / 4, (b0 % 4) * 16;
    DivModJoin(b0 % 4, 0, 16);
    assert v0 * 4 + v1 / 16 == b0;
    assert DecodeGroup(v0, v1, 0, 0)[..1] == [b0];
  }

  lemma DecodeLastEncodeTwo(b0: Byte, b1: Byte)
    ensures DecodeLast(EncodeDigits([b0, b1])) == Success([b0, b1])
  {
    var v0, v1, v2 := b0 / 4, (b0 % 4) * 16 + b1 / 16, (b1 % 16) * 4;
    DivModJoin(b0 % 4, b1 / 16, 16);
    DivModJoin(b1 % 16, 0, 4);
    assert v0 * 4 + v1 / 16 == b0;
    assert (v1 % 16) * 16 + v2 / 4 == b1;
    assert DecodeGroup(v0, v1, v2, 0)[..2] == [b0, b1];
  }

  /** A full group decodes back to its three octets. */
  lemma DecodeDigitsEncodeGroup(b0: Byte, b1: Byte, b2: Byte)
    ensures DecodeDigits(EncodeGroup(b0, b1, b2)) == Success([b0, b1, b2])
  {
    var q := EncodeGroup(b0, b1, b2);
    DecodeGroupEncodeGroup(b0, b1, b2);
    assert DecodeLast(q) == Success(DecodeGroup(q[0].v, q[1].v, q[2].v, q[3].v));
  }

  /** A full quantum in front of more digits decodes group by group. */
  lemma DecodeDigitsCons(q: seq<Digit>, rest: seq<Digit>)
    requires |q| == 4 && AllSym(q) && |rest| > 0
    requires DecodeDigits(rest).Success?
    ensures DecodeDigits(q + rest) == Success(DecodeGroup(q[0].v, q[1].v, q[2].v, q[3].v) + DecodeDigits(rest).value)
  {
    var ds := q + rest;
    assert ds[..4] == q;
    assert ds[4..] == rest;
  }

  lemma {:induction false} DecodeDigitsEncodeDigits(b: Bytes)
    ensures DecodeDigits(EncodeDigits(b)) == Success(b)
    decreases |b|
  {
    if |b| == 1 {
      assert [b[0]] == b;
      DecodeLastEncodeOne(b[0]);
    } else if |b| == 2 {
      assert [b[0], b[1]] == b;
      DecodeLastEncodeTwo(b[0], b[1]);
    } else if |b| == 3 {
      assert [b[0], b[1], b[2]] == b;
      DecodeDigitsEncodeGroup(b[0], b[1], b[2]);
    } else if |b| > 3 {
      var q := EncodeGroup(b[0], b[1], b[2]);
      DecodeGroupEncodeGroup(b[0], b[1], b[2]);
      DecodeDigitsEncodeDigits(b[3..]);
      DecodeDigitsCons(q, EncodeDigits(b[3..]));
      assert [b[0], b[1], b[2]] + b[3..] == b;
    }
  }

  /** A text made only of digit characters contains no newline. */
  lemma {:induction false} DigitsNoNewline(s: string, i: int)
    requires Digits(s).Some?
    requires 0 <= i < |s|
    ensures !IsNewline(s[i])
  {
    if i > 0 {
      DigitsNoNewline(s[1..], i - 1);
    }
  }

  lemma NoNewlineInDigits(s: string)
    requires Digits(s).Some?
    ensures forall i :: 0 <= i < |s| ==> !IsNewline(s[i])
  {
    forall i | 0 <= i < |s|
      ensures !IsNewline(s[i])
    {
      DigitsNoNewline(s, i);
    }
  }

  /** A line break on its own is dropped entirely. */
  lemma StripNewlinesDrops(c: char)
    requires IsNewline(c)
    ensures StripNewlines([c]) == ""
  {
  }

  /** Stripping works piecewise: what is kept of a text is what is kept of each part, in order. */
  lemma {:induction false} StripNewlinesConcat(a: string, b: string)
    ensures StripNewlines(a + b) == StripNewlines(a) + StripNewlines(b)
    decreases |a|
  {
    if |a| > 0 {
      assert (a + b)[0] == a[0];
      assert (a + b)[1..] == a[1..] + b;
      StripNewlinesConcat(a[1..], b);
    } else {
      assert a + b == b;
    }
  }

  lemma StripNewlinesIdentity(s: string)
    requires forall i :: 0 <= i < |s| ==> !IsNewline(s[i])
    ensures StripNewlines(s) == s
  {
    if |s| > 0 {
      StripNewlinesIdentity(s[1..]);
    }
  }

  /** Round trip: `DecodeString(EncodeToString(x))` gives back `x`. */
  lemma DecodeEncode(b: Bytes)
    ensures Decode(Encode(b)) == Success(b)
  {
    DigitsChars(EncodeDigits(b));
    NoNewlineInDigits(Encode(b));
    StripNewlinesIdentity(Encode(b));
    DecodeDigitsEncodeDigits(b);
  }

  /** Encoding never maps two byte strings to the same text. */
  lemma EncodeInjective(a: Bytes, b: Bytes)
    requires Encode(a) == Encode(b)
    ensures a == b
  {
    DecodeEncode(a);
    DecodeEncode(b);
  }

  // ---------------------------------------------------------------- acceptance

  /** A full quantum in front of well-formed digits keeps them well-formed, and back. */
  lemma WellFormedCons(ds: seq<Digit>)
    requires |ds| > 4
    ensures WellFormedDigits(ds) <==> AllSym(ds[..4]) && WellFormedDigits(ds[4..])
    ensures CanonicalDigits(ds) <==> AllSym(ds[..4]) && CanonicalDigits(ds[4..])
  {
    var rest := ds[4..];
    if |rest| >= 3 {
      assert ds[|ds| - 1] == rest[|rest| - 1];
      assert ds[|ds| - 2] == rest[|rest| - 2];
      assert ds[|ds| - 3] == rest[|rest| - 3];
    }
    if AllSym(ds[..4]) && WellFormedDigits(rest) {
      forall i | 0 <= i < |ds| - 2
        ensures ds[i].Sym?
      {
        if i >= 4 {
          assert ds[i] == rest[i - 4];
        } else {
          assert ds[i] == ds[..4][i];
        }
      }
    }
    if WellFormedDigits(ds) {
      forall i | 0 <= i < |rest| - 2
        ensures rest[i].Sym?
      {
        assert rest[i] == ds[i + 4];
      }
      forall i | 0 <= i < 4
        ensures ds[..4][i].Sym?
      {
        assert ds[..4][i] == ds[i];
      }
    }
  }

  lemma {:induction false} DecodeDigitsSucceedsIff(ds: seq<Digit>)
    ensures DecodeDigits(ds).Success? <==> WellFormedDigits(ds)
    decreases |ds|
  {
    if |ds| > 4 {
      WellFormedCons(ds);
      DecodeDigitsSucceedsIff(ds[4..]);
    }
  }

  lemma {:induction false} EncodeDigitsCanonical(b: Bytes)
    ensures CanonicalDigits(EncodeDigits(b))
    decreases |b|
  {
    if |b| == 1 {
      DivModJoin(b[0] % 4, 0, 16);
    } else if |b| == 2 {
      DivModJoin(b[1] % 16, 0, 4);
    } else if |b| > 3 {
      var ds := EncodeDigits(b);
      EncodeDigitsCanonical(b[3..]);
      assert ds[..4] == EncodeGroup(b[0], b[1], b[2]);
      assert ds[4..] == EncodeDigits(b[3..]);
      WellFormedCons(ds);
    }
  }

  /** Every encoding is canonical text. */
  lemma EncodeCanonical(b: Bytes)
    ensures Canonical(Encode(b))
  {
    DigitsChars(EncodeDigits(b));
    EncodeDigitsCanonical(b);
  }

  /** Four sextets decode to three octets that encode back to them. */
  lemma EncodeDigitsDecodeFull(v0: Sextet, v1: Sextet, v2: Sextet, v3: Sextet)
    ensures EncodeDigits(DecodeGroup(v0, v1, v2, v3)) == [Sym(v0), Sym(v1), Sym(v2), Sym(v3)]
  {
    var d := DecodeGroup(v0, v1, v2, v3);
    EncodeGroupDecodeGroup(v0, v1, v2, v3);
    assert d[3..] == [];
    assert EncodeDigits(d) == EncodeGroup(d[0], d[1], d[2]) + EncodeDigits(d[3..]);
  }

  /** Three sextets and a pad, with no leftover bits, decode to two octets that encode back. */
  lemma EncodeDigitsDecodeTwo(v0: Sextet, v1: Sextet, v2: Sextet)
    requires v2 % 4 == 0
    ensures EncodeDigits(DecodeGroup(v0, v1, v2, 0)[..2]) == [Sym(v0), Sym(v1), Sym(v2), PadDigit]
  {
    var d0: Byte := v0 * 4 + v1 / 16;
    var d1: Byte := (v1 % 16) * 16 + v2 / 4;
    assert DecodeGroup(v0, v1, v2, 0)[..2] == [d0, d1];
    DivModJoin(v0, v1 / 16, 4);
    DivModJoin(v1 % 16, v2 / 4, 16);
    assert (d0 % 4) * 16 + d1 / 16 == v1;
    assert (d1 % 16) * 4 == v2;
  }

  /** Two sextets and two pads, with no leftover bits, decode to one octet that encodes back. */
  lemma EncodeDigitsDecodeOne(v0: Sextet, v1: Sextet)
    requires v1 % 16 == 0
    ensures EncodeDigits(DecodeGroup(v0, v1, 0, 0)[..1]) == [Sym(v0), Sym(v1), PadDigit, PadDigit]
  {
    var d0: Byte := v0 * 4 + v1 / 16;
    assert DecodeGroup(v0, v1, 0, 0)[..1] == [d0];
    DivModJoin(v0, v1 / 16, 4);
    assert (d0 % 4) * 16 == v1;
  }

  lemma EncodeDigitsDecodeLast(q: seq<Digit>)
    requires |q| == 4 && CanonicalDigits(q)
    ensures DecodeLast(q).Success?
    ensures EncodeDigits(DecodeLast(q).value) == q
  {
    match (q[0], q[1], q[2], q[3])
    case (Sym(v0), Sym(v1), Sym(v2), Sym(v3)) =>
      EncodeDigitsDecodeFull(v0, v1, v2, v3);
    case (Sym(v0), Sym(v1), Sym(v2), PadDigit) =>
      EncodeDigitsDecodeTwo(v0, v1, v2);
    case (Sym(v0), Sym(v1), PadDigit, PadDigit) =>
      EncodeDigitsDecodeOne(v0, v1);
    case _ =>
  }

  /** Three octets in front of more octets encode group by group. */
  lemma EncodeDigitsCons(d: Bytes, r: Bytes)
    requires |d| == 3 && |r| > 0
    ensures EncodeDigits(d + r) == EncodeGroup(d[0], d[1], d[2]) + EncodeDigits(r)
  {
    assert (d + r)[3..] == r;
  }

  lemma {:induction false} EncodeDigitsDecodeDigits(ds: seq<Digit>)
    requires CanonicalDigits(ds)
    ensures DecodeDigits(ds).Success?
    ensures EncodeDigits(DecodeDigits(ds).value) == ds
    decreases |ds|
  {
    if |ds| == 4 {
      EncodeDigitsDecodeLast(ds);
    } else if |ds| > 4 {
      var q, rest := ds[..4], ds[4..];
      WellFormedCons(ds);
      EncodeDigitsDecodeDigits(rest);
      assert ds == q + rest;
      DecodeDigitsCons(q, rest);
      var d := DecodeGroup(q[0].v, q[1].v, q[2].v, q[3].v);
      EncodeGroupDecodeGroup(q[0].v, q[1].v, q[2].v, q[3].v);
      EncodeDigitsCons(d, DecodeDigits(rest).value);
    }
  }

  /** The other round trip: canonical text is the encoding of what it decodes to. */
  lemma EncodeDecode(t: string)
    requires Canonical(t)
    ensures Decode(t).Success?
    ensures Encode(Decode(t).value) == t
  {
    CharsDigits(t);
    NoNewlineInDigits(t);
    StripNewlinesIdentity(t);
    EncodeDigitsDecodeDigits(Digits(t).value);
  }

  /** Canonical text is fixed by the bytes it decodes to: it is their encoding. */
  lemma CanonicalIsEncoding(t: string, b: Bytes)
    requires Canonical(t) && Decode(t) == Success(b)
    ensures t == Encode(b)
  {
    EncodeDecode(t);
  }

  // ---------------------------------------------------------- any accepted text

  /** Line breaks make no difference to what is decoded, nor to whether it is. */
  lemma DecodeStripped(s: string)
    ensures Decode(s) == Decode(StripNewlines(s))
  {
    StripNewlinesIdentity(StripNewlines(s));
  }

  /** The final quantum with the bits a pad leaves over set to zero. */
  function ClearLast(q: seq<Digit>): (c: seq<Digit>)
    requires |q| == 4
    ensures |c| == 4
  {
    match (q[0], q[1], q[2], q[3])
    case (Sym(v0), Sym(v1), Sym(v2), PadDigit) => [Sym(v0), Sym(v1), Sym(v2 - v2 % 4), PadDigit]
    case (Sym(v0), Sym(v1), PadDigit, PadDigit) => [Sym(v0), Sym(v1 - v1 % 16), PadDigit, PadDigit]
    case _ => q
  }

  /** The digits with the leftover bits of their final quantum set to zero. */
  function ClearLeftover(ds: seq<Digit>): (c: seq<Digit>)
    ensures |c| == |ds|
  {
    if |ds| < 4 then ds else ds[..|ds| - 4] + ClearLast(ds[|ds| - 4..])
  }

  /** Clearing leftover bits touches nothing but the final quantum. */
  lemma ClearLeftoverCons(ds: seq<Digit>)
    requires |ds| > 4 && |ds| % 4 == 0
    ensures ClearLeftover(ds) == ds[..4] + ClearLeftover(ds[4..])
  {
    var rest := ds[4..];
    assert ds[|ds| - 4..] == rest[|rest| - 4..];
    assert ds[..|ds| - 4] == ds[..4] + rest[..|rest| - 4];
  }

  /** Three sextets and a pad: the two low bits of the third sextet are not decoded. */
  lemma DecodeLastIgnoresTwo(v0: Sextet, v1: Sextet, v2: Sextet)
    ensures DecodeGroup(v0, v1, v2 - v2 % 4, 0)[..2] == DecodeGroup(v0, v1, v2, 0)[..2]
  {
    DivModJoin(v2 / 4, 0, 4);
  }

  /** Two sextets and two pads: the four low bits of the second sextet are not decoded. */
  lemma DecodeLastIgnoresOne(v0: Sextet, v1: Sextet)
    ensures DecodeGroup(v0, v1 - v1 % 16, 0, 0)[..1] == DecodeGroup(v0, v1, 0, 0)[..1]
  {
    DivModJoin(v1 / 16, 0, 16);
  }

  /** A well-formed final quantum decodes as its cleared form, which is canonical. */
  lemma ClearLastDecodes(q: seq<Digit>)
    requires |q| == 4 && WellFormedDigits(q)
    ensures CanonicalDigits(ClearLast(q))
    ensures DecodeLast(ClearLast(q)) == DecodeLast(q)
  {
    match (q[0], q[1], q[2], q[3])
    case (Sym(v0), Sym(v1), Sym(v2), PadDigit) =>
      DecodeLastIgnoresTwo(v0, v1, v2);
    case (Sym(v0), Sym(v1), PadDigit, PadDigit) =>
      DecodeLastIgnoresOne(v0, v1);
    case _ =>
  }

  /** Well-formed digits decode as their cleared form, which is canonical. */
  lemma {:induction false} ClearLeftoverDecodes(ds: seq<Digit>)
    requires WellFormedDigits(ds)
    ensures CanonicalDigits(ClearLeftover(ds))
    ensures DecodeDigits(ClearLeftover(ds)) == DecodeDigits(ds)
    decreases |ds|
  {
    if |ds| == 4 {
      assert ClearLeftover(ds) == ClearLast(ds);
      ClearLastDecodes(ds);
    } else if |ds| > 4 {
      var q, rest := ds[..4], ds[4..];
      var c := ClearLeftover(ds);
      WellFormedCons(ds);
      ClearLeftoverDecodes(rest);
      ClearLeftoverCons(ds);
      assert c[..4] == q && c[4..] == ClearLeftover(rest);
      WellFormedCons(c);
      DecodeDigitsSucceedsIff(rest);
      DecodeDigitsCons(q, rest);
      DecodeDigitsCons(q, ClearLeftover(rest));
      assert ds == q + rest;
    }
  }

  /**
    What `DecodeString` returns for any text it accepts: the bytes whose encoding
    is that text with its line breaks removed and its leftover bits cleared.
    With `EncodeInjective`, this fixes the decoded bytes.
   */
  lemma DecodeValue(s: string)
    requires Decode(s).Success?
    ensures Encode(Decode(s).value) == Chars(ClearLeftover(Digits(StripNewlines(s)).value))
  {
    var ds := Digits(StripNewlines(s)).value;
    DecodeDigitsSucceedsIff(ds);
    ClearLeftoverDecodes(ds);
    EncodeDigitsDecodeDigits(ClearLeftover(ds));
  }

  // The test vectors of section 10 of RFC 4648, which tie the table and the bit layout down.

  lemma EncodeVectorF()
    ensures Encode([102]) == "Zg=="
  {
    assert EncodeDigits([102]) == [Sym(25), Sym(32), PadDigit, PadDigit];
  }

  lemma EncodeVectorFo()
    ensures Encode([102, 111]) == "Zm8="
  {
    assert EncodeDigits([102, 111]) == [Sym(25), Sym(38), Sym(60), PadDigit];
  }

  lemma EncodeVectorFoo()
    ensures Encode([102, 111, 111]) == "Zm9v"
  {
    assert EncodeDigits([102, 111, 111]) == [Sym(25), Sym(38), Sym(61), Sym(47)];
  }

  lemma EncodeVectorFoob()
    ensures Encode([102, 111, 111, 98]) == "Zm9vYg=="
  {
    assert EncodeDigits([102, 111, 111, 98]) == EncodeGroup(102, 111, 111) + EncodeDigits([98]);
    assert EncodeDigits([98]) == [Sym(24), Sym(32), PadDigit, PadDigit];
  }

  /** A line break inside an encoding is skipped: "Zm9v" split over two lines still reads "foo". */
  lemma DecodeVectorLineBreak()
    ensures Decode("Zm\n9v") == Success([102, 111, 111])
  {
    assert StripNewlines("Zm\n9v") == "Zm9v";
    EncodeVectorFoo();
    DecodeEncode([102, 111, 111]);
  }
}

=== FILE: cli.dfy ===
/**
  main.go: the two actions of the command. `-format` generates, archives and
  stores a new data key and prints its passphrase; `-uuid` reads the stored
  record of a volume, has KMS decrypt it and prints the passphrase. Each
  action is a pipeline that stops at its first failing step. A run records
  the steps it attempted, what it printed and the local files it left.
 */
module Cli {
  import opened Results
  import Base64
  import Record
  import Aws
  import LocalFs
  import Keys

  const DirRoot: string := "/etc/awskmsluks/"
  const ConfigPath: string := "config.json"
  const KeyStore: string := "keys/"

  /** The configuration file's contents (config.go). */
  datatype Config = Config(cmkArn: string, production: bool, keyArchiveBucket: string)

  /**
    Everything a run consults outside the program: `os.Hostname`, `loadConfig`
    by path, `uuid.GenerateUUID`, the clock, the AWS services and the local
    filesystem with its faults.
   */
  datatype World = World(
    hostname: Result<string, string>,
    loadConfig: string -> Result<Config, string>,
    newUuid: Result<string, string>,
    now: Record.Timestamp,
    aws: Aws.Services,
    faults: LocalFs.Faults,
    files: LocalFs.Files)

  /** The command-line flags `-format` and `-uuid`. */
  datatype Flags = Flags(format: bool, uuid: string)

  /** The steps of the two pipelines. */
  datatype Step = Hostname | LoadConfig | Generate | Archive | Store | ReadKey | ParseKey | DecryptKey | Print

  const FormatSteps: seq<Step> := [Hostname, LoadConfig, Generate, Archive, Store, Print]
  const OpenSteps: seq<Step> := [Hostname, ReadKey, ParseKey, DecryptKey, Print]

  /** Why a run stopped: the flags were unusable, or one step failed. */
  datatype MainError =
    | Usage
    | HostnameError(reason: string)
    | ConfigError(reason: string)
    | GenerateError(cause: Keys.KeyError)
    | ArchiveError(cause: Keys.KeyError)
    | StoreError(cause: Keys.KeyError)
    | ReadError(path: string, readFailure: LocalFs.FsError)
    | ParseError(path: string, parseFailure: Record.JsonError)
    | DecryptError(cause: Keys.KeyError)

  /** The step an error stops the pipeline at. */
  function StepOf(e: MainError): Step
    requires !e.Usage?
  {
    match e
    case HostnameError(_) => Hostname
    case ConfigError(_) => LoadConfig
    case GenerateError(_) => Generate
    case ArchiveError(_) => Archive
    case StoreError(_) => Store
    case ReadError(_, _) => ReadKey
    case ParseError(_, _) => ParseKey
    case DecryptError(_) => DecryptKey
  }

  /**
    The trace of a run: the steps attempted, standard output, the UUID named
    in the reminder written to standard error (if one was), the local files
    left behind, and the run's error.
   */
  datatype Run = Run(steps: seq<Step>, stdout: string, reminder: Option<string>, files: LocalFs.Files, err: Option<MainError>)

  /** A run that stopped at the last of `steps` having printed nothing. */
  function Abort(steps: seq<Step>, files: LocalFs.Files, e: MainError): Run
  {
    Run(steps, "", None, files, Some(e))
  }

  /** The text of the reminder written to standard error after a successful format. */
  function ReminderText(uuid: string): string
  {
    "IMPORTANT: Update volume's UUID after the format operation has completed with:\ncryptsetup luksUUID <device> --uuid "
      + uuid + "\n"
  }

  /** The local store file `openDev` reads for a host and a volume. */
  function KeyPath(fqdn: string, uuid: string): (p: string)
    ensures forall k: Record.Key :: k.context.fqdn == fqdn && k.context.uuid == uuid ==>
              p == Keys.StoreFile(DirRoot + KeyStore, k)
  {
    DirRoot + KeyStore + fqdn + "/" + uuid + ".json"
  }

  /**
    `formatDev`. Local files can change only once the store step, the fifth,
    has been attempted.
   */
  function FormatDev(w: World): (r: Run)
    ensures 1 <= |r.steps| && r.steps <= FormatSteps
    ensures r.err.None? <==> r.steps == FormatSteps
    ensures r.err.Some? ==>
              && !r.err.value.Usage?
              && r.steps[|r.steps| - 1] == StepOf(r.err.value)
              && r.stdout == "" && r.reminder.None?
    ensures |r.steps| < 5 ==> r.files == w.files
    ensures r.err.None? ==> w.newUuid.Success? && r.reminder == Some(w.newUuid.value)
    ensures w.hostname.Failure? ==> r == Abort([Hostname], w.files, HostnameError(w.hostname.error))
    ensures w.hostname.Success? && w.loadConfig(DirRoot + ConfigPath).Failure? ==>
              r == Abort([Hostname, LoadConfig], w.files, ConfigError(w.loadConfig(DirRoot + ConfigPath).error))
    ensures w.hostname.Success? && w.loadConfig(DirRoot + ConfigPath).Success? ==>
              var c := w.loadConfig(DirRoot + ConfigPath).value;
              var key := Keys.NewDataKey(c.cmkArn, w.hostname.value, c.production, w.aws, w.newUuid, w.now);
              && (key.Failure? ==> r == Abort([Hostname, LoadConfig, Generate], w.files, GenerateError(key.error)))
              && (key.Success? ==> r == Publish(key.value, c.keyArchiveBucket, w))
  {
    match w.hostname
    case Failure(e) => Abort([Hostname], w.files, HostnameError(e))
    case Success(fqdn) =>
      match w.loadConfig(DirRoot + ConfigPath)
      case Failure(e) => Abort([Hostname, LoadConfig], w.files, ConfigError(e))
      case Success(c) =>
        match Keys.NewDataKey(c.cmkArn, fqdn, c.production, w.aws, w.newUuid, w.now)
        case Failure(e) => Abort([Hostname, LoadConfig, Generate], w.files, GenerateError(e))
        case Success(k) => Publish(k, c.keyArchiveBucket, w)
  }

  /** The last three steps of `formatDev`: archive, store and print a generated key. */
  function Publish(k: Record.Key, bucket: string, w: World): (r: Run)
    ensures 4 <= |r.steps| && r.steps <= FormatSteps
    ensures r.err.None? <==> r.steps == FormatSteps
    ensures r.err.Some? ==>
              && !r.err.value.Usage?
              && r.steps[|r.steps| - 1] == StepOf(r.err.value)
              && r.stdout == "" && r.reminder.None?
    ensures |r.steps| < 5 ==> r.files == w.files
    ensures r.err.None? ==> r.stdout == k.dataKey.plain && r.reminder == Some(k.context.uuid)
    ensures Keys.Archive(k, bucket, w.aws).Fail? ==>
              r == Abort([Hostname, LoadConfig, Generate, Archive], w.files, ArchiveError(Keys.Archive(k, bucket, w.aws).error))
    ensures Keys.Archive(k, bucket, w.aws).Pass? ==>
              var stored := Keys.Store(k, DirRoot + KeyStore, w.files, w.faults);
              && (stored.status.Fail? ==>
                    r == Abort([Hostname, LoadConfig, Generate, Archive, Store], stored.files, StoreError(stored.status.error)))
              && (stored.status.Pass? ==> r.err.None? && r.files == stored.files)
  {
    match Keys.Archive(k, bucket, w.aws)
    case Fail(e) => Abort([Hostname, LoadConfig, Generate, Archive], w.files, ArchiveError(e))
    case Pass =>
      var stored := Keys.Store(k, DirRoot + KeyStore, w.files, w.faults);
      match stored.status
      case Fail(e) => Abort([Hostname, LoadConfig, Generate, Archive, Store], stored.files, StoreError(e))
      case Pass => Run(FormatSteps, k.dataKey.plain, Some(k.context.uuid), stored.files, None)
  }

  /** `openDev`: it only reads local files, so they are never changed. */
  function OpenDev(uuid: string, w: World): (r: Run)
    ensures 1 <= |r.steps| && r.steps <= OpenSteps
    ensures r.err.None? <==> r.steps == OpenSteps
    ensures r.err.Some? ==>
              && !r.err.value.Usage?
              && r.steps[|r.steps| - 1] == StepOf(r.err.value)
              && r.stdout == "" && r.reminder.None?
    ensures r.files == w.files && r.reminder.None?
    ensures r.err.Some? && (r.err.value.ReadError? || r.err.value.ParseError?) ==>
              w.hostname.Success? && r.err.value.path == KeyPath(w.hostname.value, uuid)
    ensures r.err.Some? && r.err.value.ReadError? <==>
              w.hostname.Success? && LocalFs.Read(w.files, w.faults, KeyPath(w.hostname.value, uuid)).Failure?
    ensures w.hostname.Failure? ==> r == Abort([Hostname], w.files, HostnameError(w.hostname.error))
    ensures w.hostname.Success? ==>
              var path := KeyPath(w.hostname.value, uuid);
              var read := LocalFs.Read(w.files, w.faults, path);
              && (read.Failure? ==> r == Abort([Hostname, ReadKey], w.files, ReadError(path, read.error)))
              && (read.Success? && Record.Unmarshal(read.value).Failure? ==>
                    r == Abort([Hostname, ReadKey, ParseKey], w.files, ParseError(path, Record.Unmarshal(read.value).error)))
    ensures w.hostname.Success? ==>
              var read := LocalFs.Read(w.files, w.faults, KeyPath(w.hostname.value, uuid));
              read.Success? && Record.Unmarshal(read.value).Success? ==>
                var k := Record.Unmarshal(read.value).value;
                var d := Keys.Decrypt(k, w.aws);
                && (d.status.Fail? ==> r == Abort([Hostname, ReadKey, ParseKey, DecryptKey], w.files, DecryptError(d.status.error)))
                && (d.status.Pass? ==>
                      && r.err.None? && r.stdout == d.key.dataKey.plain
                      && Base64.Canonical(r.stdout)
                      && Base64.Decode(r.stdout) == Success(w.aws.decrypt(Keys.DecryptRequest(k, w.aws).value).value))
  {
    match w.hostname
    case Failure(e) => Abort([Hostname], w.files, HostnameError(e))
    case Success(fqdn) =>
      var path := KeyPath(fqdn, uuid);
      match LocalFs.Read(w.files, w.faults, path)
      case Failure(e) => Abort([Hostname, ReadKey], w.files, ReadError(path, e))
      case Success(b) =>
        match Record.Unmarshal(b)
        case Failure(e) => Abort([Hostname, ReadKey, ParseKey], w.files, ParseError(path, e))
        case Success(k) =>
          var d := Keys.Decrypt(k, w.aws);
          match d.status
          case Fail(e) => Abort([Hostname, ReadKey, ParseKey, DecryptKey], w.files, DecryptError(e))
          case Pass => Run(OpenSteps, d.key.dataKey.plain, None, w.files, None)
  }

  /** `main`: without `-format` and without `-uuid` nothing runs; `-format` takes precedence. */
  function Main(f: Flags, w: World): (r: Run)
    ensures r.err == Some(Usage) <==> !f.format && f.uuid == ""
    ensures r.err == Some(Usage) ==> r.steps == [] && r.stdout == "" && r.reminder.None? && r.files == w.files
    ensures f.format ==> 1 <= |r.steps| && r.steps <= FormatSteps
    ensures !f.format && f.uuid != "" ==> 1 <= |r.steps| && r.steps <= OpenSteps && r.files == w.files
    ensures f.format ==> r == FormatDev(w)
    ensures !f.format && f.uuid != "" ==> r == OpenDev(f.uuid, w)
  {
    if !f.format && f.uuid == "" then Run([], "", None, w.files, Some(Usage))
    else if f.format then FormatDev(w)
    else OpenDev(f.uuid, w)
  }

  /** A run of the format pipeline never reaches the open pipeline's own steps. */
  lemma FormatPrefixAvoids(steps: seq<Step>)
    requires steps <= FormatSteps
    ensures ReadKey !in steps && ParseKey !in steps && DecryptKey !in steps
  {
  }

  /** A run of the open pipeline never reaches the format pipeline's own steps. */
  lemma OpenPrefixAvoids(steps: seq<Step>)
    requires steps <= OpenSteps
    ensures LoadConfig !in steps && Generate !in steps && Archive !in steps && Store !in steps
  {
  }

  /** `formatDev` never reads or decrypts a stored key. */
  lemma FormatNeverOpens(w: World)
    ensures ReadKey !in FormatDev(w).steps && DecryptKey !in FormatDev(w).steps
  {
    FormatPrefixAvoids(FormatDev(w).steps);
  }

  /** `openDev` never generates, archives or stores a key. */
  lemma OpenNeverFormats(uuid: string, w: World)
    ensures Generate !in OpenDev(uuid, w).steps && Archive !in OpenDev(uuid, w).steps
    ensures Store !in OpenDev(uuid, w).steps
  {
    OpenPrefixAvoids(OpenDev(uuid, w).steps);
  }

  // ---------------------------------------------------------------- properties

  /** `-format` behaves the same whatever `-uuid` says. */
  lemma FormatIgnoresUuid(w: World, uuid: string)
    ensures Main(Flags(true, uuid), w) == Main(Flags(true, ""), w)
  {
  }

  /** The file `openDev` reads is the file `store` wrote for a record of that host and volume. */
  lemma OpenPathIsStorePath(k: Record.Key)
    ensures KeyPath(k.context.fqdn, k.context.uuid) == Keys.StoreFile(DirRoot + KeyStore, k)
  {
  }

  /** For host `host1` and volume `abc-123`, the local file and the archived object. */
  lemma PathExample(k: Record.Key)
    requires k.context.fqdn == "host1" && k.context.uuid == "abc-123"
    ensures Keys.StoreFile(DirRoot + KeyStore, k) == "/etc/awskmsluks/keys/host1/abc-123.json"
    ensures Keys.ArchiveObjectKey(k) == "host1/abc-123.json"
  {
    var o := Keys.ArchiveObjectKey(k);
    assert o == k.context.fqdn + "/" + k.context.uuid + ".json";
    ExampleText();
  }

  lemma ExampleText()
    ensures "host1" + "/" + "abc-123" + ".json" == "host1/abc-123.json"
    ensures DirRoot + KeyStore + "host1/abc-123.json" == "/etc/awskmsluks/keys/host1/abc-123.json"
  {
  }

  /**
    A successful format archives and stores the redacted record under the
    host and volume, and prints the unredacted passphrase KMS generated.
   */
  lemma FormatDevOutcome(w: World, c: Config, id: string, out: Aws.GenerateDataKeyOutput)
    requires w.hostname.Success?
    requires w.loadConfig(DirRoot + ConfigPath) == Success(c)
    requires w.aws.arnRegion(c.cmkArn).Success? && w.aws.config.Pass?
    requires w.newUuid == Success(id)
    requires w.aws.generateDataKey(Keys.GenerateRequest(w.aws.arnRegion(c.cmkArn).value,
               Record.NewEncryptionContext(w.hostname.value, id, c.production), c.cmkArn)) == Success(out)
    requires FormatDev(w).err.None?
    ensures var k := Keys.NewDataKey(c.cmkArn, w.hostname.value, c.production, w.aws, w.newUuid, w.now).value;
      && w.aws.upload(Keys.ArchiveRequest(k, c.keyArchiveBucket)).Pass?
      && Base64.Decode(FormatDev(w).stdout) == Success(out.plaintext)
      && FormatDev(w).reminder == Some(id)
      && KeyPath(w.hostname.value, id) in FormatDev(w).files
      && Record.Unmarshal(FormatDev(w).files[KeyPath(w.hostname.value, id)]) == Success(Record.Redact(k))
  {
    var k := Keys.NewDataKey(c.cmkArn, w.hostname.value, c.production, w.aws, w.newUuid, w.now).value;
    assert KeyPath(w.hostname.value, id) == Keys.StoreFile(DirRoot + KeyStore, k);
  }

  /**
    Formatting and then opening the same volume prints the same passphrase,
    provided KMS decrypts the generated ciphertext under the context it was
    generated for back to the generated plaintext, and no upload or local file
    operation fails.
   */
  lemma FormatThenOpen(w: World, c: Config, id: string, out: Aws.GenerateDataKeyOutput)
    requires w.hostname.Success?
    requires w.loadConfig(DirRoot + ConfigPath) == Success(c)
    requires w.aws.arnRegion(c.cmkArn).Success? && w.aws.config.Pass?
    requires w.newUuid == Success(id)
    requires var g := Keys.GenerateRequest(w.aws.arnRegion(c.cmkArn).value,
                        Record.NewEncryptionContext(w.hostname.value, id, c.production), c.cmkArn);
      && w.aws.generateDataKey(g) == Success(out)
      && w.aws.decrypt(Aws.DecryptInput(g.region, out.ciphertextBlob, g.encryptionContext)) == Success(out.plaintext)
    requires forall u :: w.aws.upload(u).Pass?
    requires forall op, p :: w.faults(op, p).Pass?
    ensures FormatDev(w).err.None?
    ensures Base64.Decode(FormatDev(w).stdout) == Success(out.plaintext)
    ensures var reopened := OpenDev(id, w.(files := FormatDev(w).files));
      reopened.err.None? && reopened.stdout == FormatDev(w).stdout
  {
    var fqdn := w.hostname.value;
    var k := Keys.NewDataKey(c.cmkArn, fqdn, c.production, w.aws, w.newUuid, w.now).value;
    var stored := Keys.Store(k, DirRoot + KeyStore, w.files, w.faults);
    assert FormatDev(w).files == stored.files;
    var path := KeyPath(fqdn, id);
    assert path == Keys.StoreFile(DirRoot + KeyStore, k);
    var w2 := w.(files := stored.files);
    assert LocalFs.Read(w2.files, w2.faults, path) == Success(stored.files[path]);
    var loaded := Record.Redact(k);
    Keys.DecryptMatchesGeneration(c.cmkArn, fqdn, c.production, w.aws, w.newUuid, w.now, k, loaded);
    var d := Keys.Decrypt(loaded, w.aws);
    assert d.status.Pass?;
  }
}

=== FILE: dev.dfy ===
/**
  dev.go: resolving a LUKS volume UUID to its block device through the
  `/dev/disk/by-uuid/` symlink. `readlink` stands for `os.Readlink` and `wd`
  for what `os.Getwd` would return inside `filepath.Abs`.
 */
module Dev {
  import opened Results
  import FilePath

  /** The directories above the device symlinks, root first. */
  const DirNames: seq<string> := ["dev", "disk", "by-uuid"]

  /** The directory of the per-UUID device symlinks, `/dev/disk/by-uuid`, built from its segments. */
  const SymlinkDir: string := "/" + FilePath.JoinSegments(DirNames)

  /** The same directory with the trailing separator dev.go writes: `/dev/disk/by-uuid/`. */
  const DevByUuidPath: string := SymlinkDir + "/"

  lemma DevByUuidPathText()
    ensures DevByUuidPath == "/dev/disk/by-uuid/"
    ensures SymlinkDir == "/dev/disk/by-uuid"
  {
  }

  /** The `(string, error)` pair `devFromUUID` returns. */
  datatype Resolved = Resolved(path: string, err: Option<string>)

  /** The symlink consulted for a UUID. */
  function LinkPath(uuid: string): (l: string)
    ensures FilePath.IsAbs(l)
    ensures DevByUuidPath <= l && l[|DevByUuidPath|..] == uuid
  {
    DevByUuidPath + uuid
  }

  /**
    `devFromUUID` as written: a target that is not absolute, including the
    empty target a failed `os.Readlink` leaves, is re-rooted under the symlink
    directory by `filepath.Abs`, and the readlink error is discarded with it.
   */
  function DevFromUuid(uuid: string, readlink: string -> Result<string, string>,
                       wd: Result<string, string>): (r: Resolved)
    ensures var link := readlink(LinkPath(uuid));
      link.Success? && FilePath.IsAbs(link.value) ==> r == Resolved(link.value, None)
    ensures var link := readlink(LinkPath(uuid));
      link.Success? && !FilePath.IsAbs(link.value) ==>
        && r.err.None?
        && r.path == FilePath.Clean(DevByUuidPath + link.value)
        && FilePath.IsAbs(r.path)
        && FilePath.Clean(r.path) == r.path
    ensures readlink(LinkPath(uuid)).Failure? ==> r == Resolved(SymlinkDir, None)
  {
    var link := readlink(DevByUuidPath + uuid);
    var dev := if link.Success? then link.value else "";
    var err := if link.Failure? then Some(link.error) else None;
    if !FilePath.IsAbs(dev) then
      FilePath.CleanAbs(DevByUuidPath + dev);
      CleanSymlinkDir();
      assert link.Failure? ==> DevByUuidPath + dev == DevByUuidPath;
      match FilePath.Abs(DevByUuidPath + dev, wd)
      case Success(a) => Resolved(a, None)
      case Failure(e) => Resolved("", Some(e))
    else Resolved(dev, err)
  }

  /** The corrected `devFromUUID`: a failed readlink is reported, with an empty path. */
  function DevFromUuidChecked(uuid: string, readlink: string -> Result<string, string>,
                              wd: Result<string, string>): (r: Resolved)
    ensures readlink(LinkPath(uuid)).Failure? ==> r == Resolved("", Some(readlink(LinkPath(uuid)).error))
    ensures readlink(LinkPath(uuid)).Success? ==> r == DevFromUuid(uuid, readlink, wd)
  {
    match readlink(DevByUuidPath + uuid)
    case Failure(e) => Resolved("", Some(e))
    case Success(_) => DevFromUuid(uuid, readlink, wd)
  }

  /** The corrected version reports an error exactly when the symlink cannot be read. */
  lemma DevFromUuidCheckedReportsFailure(uuid: string, readlink: string -> Result<string, string>,
                                         wd: Result<string, string>)
    ensures DevFromUuidChecked(uuid, readlink, wd).err.Some? <==> readlink(LinkPath(uuid)).Failure?
    ensures readlink(LinkPath(uuid)).Success? ==> FilePath.IsAbs(DevFromUuidChecked(uuid, readlink, wd).path)
  {
  }

  /** As written, a missing symlink yields the symlink directory itself and no error. */
  lemma DevFromUuidDropsError(uuid: string, readlink: string -> Result<string, string>,
                              wd: Result<string, string>)
    requires readlink(LinkPath(uuid)).Failure?
    ensures DevFromUuid(uuid, readlink, wd).err.None?
    ensures DevFromUuid(uuid, readlink, wd).path == SymlinkDir
  {
  }

  /** The working directory never matters: every path handed to `filepath.Abs` is rooted. */
  lemma DevFromUuidIgnoresWd(uuid: string, readlink: string -> Result<string, string>,
                             wd1: Result<string, string>, wd2: Result<string, string>)
    ensures DevFromUuid(uuid, readlink, wd1) == DevFromUuid(uuid, readlink, wd2)
  {
  }

  /** Folding the symlink directory's segments with its trailing empty one keeps the directories. */
  lemma ReduceDirSegments()
    ensures FilePath.Reduce(DirNames + [""], true, []) == DirNames
  {
    assert DirNames + [""] == ["dev", "disk", "by-uuid", ""];
    FoldDirSegments();
  }

  lemma FoldDirSegments()
    ensures FilePath.Reduce(["dev", "disk", "by-uuid", ""], true, []) == ["dev", "disk", "by-uuid"]
  {
  }

  lemma FoldExampleSegments()
    ensures FilePath.Reduce(["dev", "disk", "by-uuid", "..", "..", "sdb1"], true, []) == ["dev", "sdb1"]
  {
  }

  /** Two ".." segments after the symlink directory climb back to `/dev`. */
  lemma ReduceExampleSegments(target: seq<string>)
    requires target == ["..", "..", "sdb1"]
    ensures FilePath.Reduce(DirNames + target, true, []) == ["dev", "sdb1"]
  {
    assert DirNames + target == ["dev", "disk", "by-uuid", "..", "..", "sdb1"];
    FoldExampleSegments();
  }

  /** The symlink directory cleans to its name without the trailing separator. */
  lemma CleanSymlinkDir()
    ensures FilePath.Clean(DevByUuidPath) == SymlinkDir
  {
    var segs := DirNames + [""];
    FilePath.JoinConcat(DirNames, [""]);
    assert DevByUuidPath == "/" + FilePath.JoinSegments(DirNames) + "/" + FilePath.JoinSegments([""]);
    assert DevByUuidPath == "/" + FilePath.JoinSegments(segs);
    assert forall i :: 0 <= i < |segs| ==> FilePath.NoSlash(segs[i]);
    FilePath.CleanRootedSegments(segs);
    ReduceDirSegments();
  }

  /** A relative target under the symlink directory cleans to the fold of all the segments. */
  lemma CleanUnderSymlinkDir(target: seq<string>)
    requires |target| >= 1
    requires forall i :: 0 <= i < |target| ==> FilePath.NoSlash(target[i])
    ensures FilePath.Clean(DevByUuidPath + FilePath.JoinSegments(target))
         == "/" + FilePath.JoinSegments(FilePath.Reduce(DirNames + target, true, []))
  {
    DirNamesNoSlash();
    FilePath.CleanRootedConcat(DirNames, target);
  }

  lemma DirNamesNoSlash()
    ensures |DirNames| >= 1
    ensures forall i :: 0 <= i < |DirNames| ==> FilePath.NoSlash(DirNames[i])
  {
  }

  /** A symlink `../../sdb1` resolves to `/dev/sdb1`. */
  lemma DevFromUuidRelativeExample(uuid: string, readlink: string -> Result<string, string>,
                                   wd: Result<string, string>, target: seq<string>)
    requires target == ["..", "..", "sdb1"]
    requires readlink(LinkPath(uuid)) == Success(FilePath.JoinSegments(target))
    ensures FilePath.JoinSegments(target) == "../../sdb1"
    ensures DevFromUuid(uuid, readlink, wd) == Resolved("/dev/sdb1", None)
  {
    assert FilePath.JoinSegments(["..", "..", "sdb1"]) == "../../sdb1";
    assert forall i :: 0 <= i < |target| ==> FilePath.NoSlash(target[i]);
    CleanUnderSymlinkDir(target);
    ReduceExampleSegments(target);
    assert FilePath.JoinSegments(["dev", "sdb1"]) == "dev/sdb1";
  }
}

=== FILE: filepath.dfy ===
/**
  The lexical path operations of Go's `path/filepath` on Unix that dev.go
  relies on: `IsAbs`, `Clean`, `Join` and `Abs`. A path is split on '/' into
  segments, and `Clean` folds the segments through a stack: empty and "."
  segments vanish, ".." removes the segment before it, a ".." at the root is
  dropped, and a ".." that cannot be removed in a relative path is kept.
 */
module FilePath {
  import opened Results

  /** `filepath.IsAbs` on Unix: the path starts at the root. */
  predicate IsAbs(p: string)
  {
    |p| > 0 && p[0] == '/'
  }

  // ---------------------------------------------------------------- segments

  /** The segments of a path between its separators; there is always at least one. */
  function Split(p: string): (segs: seq<string>)
    ensures |segs| >= 1
  {
    if p == [] then [[]]
    else
      var rest := Split(p[1..]);
      if p[0] == '/' then [[]] + rest else [[p[0]] + rest[0]] + rest[1..]
  }

  /** The segments joined by single separators: the inverse of `Split`. */
  function JoinSegments(segs: seq<string>): string
  {
    if |segs| == 0 then []
    else if |segs| == 1 then segs[0]
    else segs[0] + "/" + JoinSegments(segs[1..])
  }

  /** A segment holds no separator. */
  predicate NoSlash(s: string)
  {
    '/' !in s
  }

  /** A path is rooted exactly when it splits into an empty first segment and more. */
  lemma IsAbsSplit(p: string)
    ensures IsAbs(p) <==> |Split(p)| >= 2 && Split(p)[0] == ""
  {
    if p != [] && p[0] != '/' {
      assert Split(p)[0] == [p[0]] + Split(p[1..])[0];
    }
  }

  /** Splitting a path and joining its segments gives the path back. */
  lemma {:induction false} JoinSplit(p: string)
    ensures JoinSegments(Split(p)) == p
  {
    if p != [] {
      var rest := Split(p[1..]);
      JoinSplit(p[1..]);
      if p[0] == '/' {
        assert p == "/" + p[1..];
      } else if |rest| == 1 {
        assert p == [p[0]] + p[1..];
      } else {
        assert JoinSegments(rest) == rest[0] + "/" + JoinSegments(rest[1..]);
        assert p == [p[0]] + p[1..];
      }
    }
  }

  /** No segment of a split path holds a separator. */
  lemma {:induction false} SplitNoSlash(p: string)
    ensures forall i :: 0 <= i < |Split(p)| ==> NoSlash(Split(p)[i])
  {
    if p != [] {
      SplitNoSlash(p[1..]);
      var rest := Split(p[1..]);
      if p[0] != '/' {
        assert NoSlash([p[0]] + rest[0]) by {
          assert NoSlash(rest[0]);
        }
        var r := [[p[0]] + rest[0]] + rest[1..];
        forall i | 0 <= i < |r| ensures NoSlash(r[i]) {
          if i > 0 {
            assert r[i] == rest[i];
          }
        }
      }
    }
  }

  /** A separator after a segment starts a new one. */
  lemma {:induction false} SplitAfter(a: string, b: string)
    requires NoSlash(a)
    ensures Split(a + "/" + b) == [a] + Split(b)
  {
    if a == [] {
      assert a + "/" + b == "/" + b;
      assert ("/" + b)[1..] == b;
    } else {
      SplitAfter(a[1..], b);
      assert (a + "/" + b)[1..] == a[1..] + "/" + b;
      assert [a[0]] + a[1..] == a;
    }
  }

  /** A text without separators is a single segment. */
  lemma {:induction false} SplitSingle(a: string)
    requires NoSlash(a)
    ensures Split(a) == [a]
  {
    if a != [] {
      SplitSingle(a[1..]);
      assert [a[0]] + a[1..] == a;
    }
  }

  /** Joining segments without separators and splitting again gives them back. */
  lemma {:induction false} SplitJoin(segs: seq<string>)
    requires |segs| >= 1
    requires forall i :: 0 <= i < |segs| ==> NoSlash(segs[i])
    ensures Split(JoinSegments(segs)) == segs
  {
    if |segs| == 1 {
      SplitSingle(segs[0]);
    } else {
      assert NoSlash(segs[0]);
      SplitJoin(segs[1..]);
      SplitAfter(segs[0], JoinSegments(segs[1..]));
    }
  }

  /** A joined path begins with its first segment. */
  lemma JoinSegmentsPrefix(segs: seq<string>)
    requires |segs| >= 1
    ensures segs[0] <= JoinSegments(segs)
  {
  }

  /** Joining two runs of segments puts one separator between them. */
  lemma {:induction false} JoinConcat(a: seq<string>, b: seq<string>)
    requires |a| >= 1 && |b| >= 1
    ensures JoinSegments(a + b) == JoinSegments(a) + "/" + JoinSegments(b)
  {
    if |a| > 1 {
      assert (a + b)[1..] == a[1..] + b;
      JoinConcat(a[1..], b);
    }
  }

  // ---------------------------------------------------------------- Clean

  /** One segment folded onto the stack of segments kept so far. */
  function Push(stack: seq<string>, seg: string, rooted: bool): seq<string>
  {
    if seg == "" || seg == "." then stack
    else if seg == ".." then
      if |stack| > 0 && stack[|stack| - 1] != ".." then stack[..|stack| - 1]
      else if rooted then stack
      else stack + [".."]
    else stack + [seg]
  }

  /** All segments folded onto the stack, left to right. */
  function Reduce(segs: seq<string>, rooted: bool, stack: seq<string>): seq<string>
    decreases |segs|
  {
    if segs == [] then stack else Reduce(segs[1..], rooted, Push(stack, segs[0], rooted))
  }

  /**
    The segments of a clean path: none empty, none ".", none holding a
    separator; a rooted path has no "..", a relative one has ".." only in front.
   */
  predicate Normal(stack: seq<string>, rooted: bool)
  {
    && (forall i :: 0 <= i < |stack| ==>
          stack[i] != "" && stack[i] != "." && NoSlash(stack[i]) && (rooted ==> stack[i] != ".."))
    && (forall i, j :: 0 <= i < j < |stack| && stack[j] == ".." ==> stack[i] == "..")
  }

  /** `filepath.Clean`: the shortest lexically equivalent path. */
  function Clean(p: string): (c: string)
    ensures |c| > 0
  {
    if p == "" then "."
    else
      var rooted := p[0] == '/';
      var stack := Reduce(Split(p), rooted, []);
      if rooted then "/" + JoinSegments(stack)
      else if stack == [] then "."
      else
        CleanStackNormal(p, false);
        JoinSegmentsPrefix(stack);
        JoinSegments(stack)
  }

  /** Folding a segment without separators keeps the stack normal. */
  lemma PushNormal(stack: seq<string>, seg: string, rooted: bool)
    requires Normal(stack, rooted) && NoSlash(seg)
    ensures Normal(Push(stack, seg, rooted), rooted)
  {
    if seg != "" && seg != "." && seg == ".." && !(|stack| > 0 && stack[|stack| - 1] != "..") && !rooted {
      var s := stack + [".."];
      forall i, j | 0 <= i < j < |s| && s[j] == ".." ensures s[i] == ".." {
        if j == |stack| && |stack| > 0 {
          assert stack[|stack| - 1] == "..";
          assert s[i] == stack[i];
        }
      }
    }
  }

  /** The fold keeps a normal stack normal. */
  lemma {:induction false} ReduceNormal(segs: seq<string>, rooted: bool, stack: seq<string>)
    requires Normal(stack, rooted)
    requires forall i :: 0 <= i < |segs| ==> NoSlash(segs[i])
    ensures Normal(Reduce(segs, rooted, stack), rooted)
    decreases |segs|
  {
    if segs != [] {
      PushNormal(stack, segs[0], rooted);
      ReduceNormal(segs[1..], rooted, Push(stack, segs[0], rooted));
    }
  }

  /** Folding segments that are already clean changes nothing. */
  lemma {:induction false} ReduceClean(segs: seq<string>, rooted: bool, stack: seq<string>)
    requires Normal(stack + segs, rooted)
    ensures Reduce(segs, rooted, stack) == stack + segs
    decreases |segs|
  {
    if segs != [] {
      var s := stack + segs;
      assert s[|stack|] == segs[0];
      if segs[0] == ".." && |stack| > 0 {
        assert s[|stack| - 1] == stack[|stack| - 1];
      }
      assert Push(stack, segs[0], rooted) == stack + [segs[0]];
      assert stack + segs == (stack + [segs[0]]) + segs[1..];
      ReduceClean(segs[1..], rooted, stack + [segs[0]]);
    }
  }

  /** The segments `Clean` keeps are normal. */
  lemma CleanStackNormal(p: string, rooted: bool)
    ensures Normal(Reduce(Split(p), rooted, []), rooted)
  {
    SplitNoSlash(p);
    ReduceNormal(Split(p), rooted, []);
  }

  /** The empty segment before the leading separator leaves the fold unchanged. */
  lemma ReduceEmptyHead(tail: seq<string>, rooted: bool)
    ensures Reduce([""] + tail, rooted, []) == Reduce(tail, rooted, [])
  {
    var segs := [""] + tail;
    assert segs[0] == "" && segs[1..] == tail;
  }

  /** A rooted path given by its segments cleans to the fold of those segments. */
  lemma CleanRootedSegments(tail: seq<string>)
    requires |tail| >= 1
    requires forall i :: 0 <= i < |tail| ==> NoSlash(tail[i])
    ensures Clean("/" + JoinSegments(tail)) == "/" + JoinSegments(Reduce(tail, true, []))
  {
    var p := "/" + JoinSegments(tail);
    SplitJoin(tail);
    SplitAfter("", JoinSegments(tail));
    assert "" + "/" + JoinSegments(tail) == p;
    assert Split(p) == [""] + tail;
    ReduceEmptyHead(tail, true);
    assert p[0] == '/';
  }

  /** A rooted directory followed by a relative path cleans to the fold of both runs of segments. */
  lemma CleanRootedConcat(dir: seq<string>, rel: seq<string>)
    requires |dir| >= 1 && |rel| >= 1
    requires forall i :: 0 <= i < |dir| ==> NoSlash(dir[i])
    requires forall i :: 0 <= i < |rel| ==> NoSlash(rel[i])
    ensures Clean("/" + JoinSegments(dir) + "/" + JoinSegments(rel))
         == "/" + JoinSegments(Reduce(dir + rel, true, []))
  {
    var segs := dir + rel;
    JoinConcat(dir, rel);
    assert "/" + JoinSegments(dir) + "/" + JoinSegments(rel) == "/" + JoinSegments(segs);
    assert forall i :: 0 <= i < |segs| ==> NoSlash(segs[i]);
    CleanRootedSegments(segs);
  }

  /** `Clean` keeps a path rooted exactly when it was rooted. */
  lemma CleanAbs(p: string)
    ensures IsAbs(Clean(p)) <==> IsAbs(p)
  {
    if p != "" && p[0] != '/' {
      var stack := Reduce(Split(p), false, []);
      if stack != [] {
        CleanStackNormal(p, false);
        JoinSegmentsPrefix(stack);
        assert stack[0] != "" && NoSlash(stack[0]);
        assert JoinSegments(stack)[0] == stack[0][0];
      }
    }
  }

  /** A rooted path cleans to a rooted path that never climbs above the root. */
  lemma CleanRootedNormal(p: string)
    requires IsAbs(p)
    ensures IsAbs(Clean(p))
    ensures Normal(Reduce(Split(p), true, []), true)
  {
    CleanStackNormal(p, true);
  }

  /** `Clean` is idempotent: a clean path is its own normal form. */
  lemma CleanIdempotent(p: string)
    ensures Clean(Clean(p)) == Clean(p)
  {
    var c := Clean(p);
    if p == "" {
      SplitSingle(".");
    } else {
      var rooted := p[0] == '/';
      var stack := Reduce(Split(p), rooted, []);
      CleanStackNormal(p, rooted);
      if rooted {
        if stack == [] {
          SplitAfter("", "");
          assert "" + "/" + "" == c;
          assert Split(c) == ["", ""];
          assert ["", ""][1..] == [""];
          assert Reduce([""], true, []) == [];
          assert Reduce(Split(c), true, []) == [];
        } else {
          SplitAfter("", JoinSegments(stack));
          SplitJoin(stack);
          assert "" + "/" + JoinSegments(stack) == c;
          ReduceClean(stack, true, []);
          assert [] + stack == stack;
        }
      } else if stack == [] {
        SplitSingle(".");
      } else {
        SplitJoin(stack);
        JoinSegmentsPrefix(stack);
        assert c[0] == stack[0][0];
        ReduceClean(stack, false, []);
        assert [] + stack == stack;
      }
    }
  }

  // ---------------------------------------------------------------- Join and Abs

  /** `filepath.Join` of two elements: empty elements are ignored and the result is cleaned. */
  function Join(a: string, b: string): (r: string)
    ensures a != "" ==> r == Clean(a + "/" + b)
    ensures a == "" && b != "" ==> r == Clean(b)
    ensures a == "" && b == "" ==> r == ""
    ensures a != "" || b != "" ==> Clean(r) == r
  {
    if a != "" then (CleanIdempotent(a + "/" + b); Clean(a + "/" + b))
    else if b != "" then (CleanIdempotent(b); Clean(b))
    else ""
  }

  /** Joining onto a rooted path gives a rooted path. */
  lemma JoinRooted(a: string, b: string)
    requires IsAbs(a)
    ensures IsAbs(Join(a, b))
  {
    CleanAbs(a + "/" + b);
  }

  /**
    `filepath.Abs`: a rooted path is cleaned; otherwise it is joined to the
    working directory, `wd` being what `os.Getwd` returned.
   */
  function Abs(p: string, wd: Result<string, string>): (r: Result<string, string>)
    ensures IsAbs(p) ==> r == Success(Clean(p))
    ensures !IsAbs(p) && wd.Failure? ==> r == Failure(wd.error)
    ensures !IsAbs(p) && wd.Success? ==> r == Success(Join(wd.value, p))
    ensures r.Success? && r.value != "" ==> Clean(r.value) == r.value
    ensures r.Success? && wd.Success? && IsAbs(wd.value) ==> IsAbs(r.value)
  {
    if IsAbs(p) then
      CleanIdempotent(p);
      CleanAbs(p);
      Success(Clean(p))
    else
      match wd
      case Failure(e) => Failure(e)
      case Success(w) =>
        if w != "" then CleanAbs(w + "/" + p); Success(Join(w, p))
        else Success(Join(w, p))
  }
}

=== FILE: keys.dfy ===
/**
  The key lifecycle of key.go: `newDataKey` asks KMS for a fresh data key
  bound to an encryption context, `archive` uploads a redacted copy to S3,
  `store` writes a redacted copy to the local key store, and `decrypt` asks
  KMS to unwrap the stored ciphertext again.
 */
module Keys {
  import opened Results
  import Base64
  import opened Record
  import Aws
  import LocalFs

  /** Size in bytes of the data key requested from KMS. */
  const PassPhraseByteSize: int := 1024

  /** The errors key.go returns, one constructor per distinct message. */
  datatype KeyError =
    | InvalidArn(parse: string)
    | AwsConfig(reason: string)
    | UuidGeneration(reason: string)
    | KmsCall(reason: string)
    | UploadFailed(reason: string)
    | MkdirFailed(reason: string)
    | OpenFailed(reason: string)
    | WriteFailed(reason: string)
    | NotBase64

  /** The `GenerateDataKey` request `newDataKey` sends for a context. */
  function GenerateRequest(region: string, ec: EncryptionContext, cmkArn: string): (g: Aws.GenerateDataKeyInput)
    ensures g.region == region
    ensures g.encryptionContext == ToMap(ec) && FromMap(g.encryptionContext) == Some(ec)
    ensures g.keyId == cmkArn && g.numberOfBytes == 1024
  {
    FromMapToMap(ec);
    Aws.GenerateDataKeyInput(region, ToMap(ec), cmkArn, PassPhraseByteSize)
  }

  /**
    `newDataKey`: parse the ARN, load the SDK configuration, draw a UUID, ask
    KMS for a data key bound to the new context, and keep both forms in base64.
    `devUuid` is what `uuid.GenerateUUID` returned and `now` the clock reading.
   */
  function NewDataKey(cmkArn: string, fqdn: string, production: bool, aws: Aws.Services,
                      devUuid: Result<string, string>, now: Timestamp): (r: Result<Key, KeyError>)
    ensures aws.arnRegion(cmkArn).Failure? ==> r == Failure(InvalidArn(aws.arnRegion(cmkArn).error))
    ensures aws.arnRegion(cmkArn).Success? && aws.config.Fail? ==> r == Failure(AwsConfig(aws.config.error))
    ensures aws.arnRegion(cmkArn).Success? && aws.config.Pass? && devUuid.Failure? ==>
              r == Failure(UuidGeneration(devUuid.error))
    ensures aws.arnRegion(cmkArn).Success? && aws.config.Pass? && devUuid.Success? ==>
              var g := GenerateRequest(aws.arnRegion(cmkArn).value,
                                       NewEncryptionContext(fqdn, devUuid.value, production), cmkArn);
              && (r.Success? <==> aws.generateDataKey(g).Success?)
              && (aws.generateDataKey(g).Failure? ==> r == Failure(KmsCall(aws.generateDataKey(g).error)))
    ensures r.Success? ==>
              && aws.arnRegion(cmkArn).Success? && aws.config.Pass? && devUuid.Success?
              && var g := GenerateRequest(aws.arnRegion(cmkArn).value, r.value.context, cmkArn);
              && r.value.context.fqdn == fqdn
              && r.value.context.production == production
              && r.value.context.uuid == devUuid.value
              && r.value.cmkArn == cmkArn
              && aws.generateDataKey(g).Success?
              && Base64.Canonical(r.value.dataKey.plain)
              && Base64.Decode(r.value.dataKey.plain) == Success(aws.generateDataKey(g).value.plaintext)
              && Base64.Canonical(r.value.dataKey.encrypted)
              && Base64.Decode(r.value.dataKey.encrypted) == Success(aws.generateDataKey(g).value.ciphertextBlob)
              && r.value.dataKey.created == now
  {
    match aws.arnRegion(cmkArn)
    case Failure(e) => Failure(InvalidArn(e))
    case Success(region) =>
      if aws.config.Fail? then Failure(AwsConfig(aws.config.error))
      else
        match devUuid
        case Failure(e) => Failure(UuidGeneration(e))
        case Success(id) =>
          var ec := NewEncryptionContext(fqdn, id, production);
          match aws.generateDataKey(GenerateRequest(region, ec, cmkArn))
          case Failure(e) => Failure(KmsCall(e))
          case Success(out) =>
            Base64.DecodeEncode(out.plaintext);
            Base64.DecodeEncode(out.ciphertextBlob);
            Base64.EncodeCanonical(out.plaintext);
            Base64.EncodeCanonical(out.ciphertextBlob);
            Success(Key(ec, cmkArn, DataKey(Base64.Encode(out.plaintext), Base64.Encode(out.ciphertextBlob), now)))
  }

  // ---------------------------------------------------------------- archive

  /** The S3 object key of a record: `FQDN/UUID.json`. */
  function ArchiveObjectKey(k: Key): (o: string)
    ensures |o| == |k.context.fqdn| + |k.context.uuid| + 6
    ensures o[..|k.context.fqdn|] == k.context.fqdn && o[|k.context.fqdn|] == '/'
    ensures o[|k.context.fqdn| + 1..] == k.context.uuid + ".json"
  {
    k.context.fqdn + "/" + k.context.uuid + ".json"
  }

  /** The upload `archive` issues: the record with its plaintext blanked, under its object key. */
  function ArchiveRequest(k: Key, bucket: string): (u: Aws.UploadInput)
    ensures u.bucket == bucket
    ensures u.key == k.context.fqdn + "/" + k.context.uuid + ".json"
    ensures u.body.dataKey.plain.None?
    ensures Unmarshal(Json(u.body)) == Success(Redact(k))
  {
    RedactedDocument(k);
    Aws.UploadInput(bucket, ArchiveObjectKey(k), Marshal(Redact(k)))
  }

  /**
    `archive`. The error of `LoadDefaultAWSConfig` is overwritten before it is
    checked, so a configuration failure does not stop the upload from being tried.
   */
  function Archive(k: Key, bucket: string, aws: Aws.Services): (r: Outcome<KeyError>)
    ensures r.Pass? <==> aws.upload(ArchiveRequest(k, bucket)).Pass?
    ensures r.Fail? ==> r.error == UploadFailed(aws.upload(ArchiveRequest(k, bucket)).error)
  {
    match aws.upload(ArchiveRequest(k, bucket))
    case Fail(e) => Fail(UploadFailed(e))
    case Pass => Pass
  }

  // ---------------------------------------------------------------- store

  /** The directory `store` creates: the store path with the FQDN appended. */
  function StoreDir(path: string, k: Key): string
  {
    path + k.context.fqdn
  }

  /** The file `store` writes: `path + FQDN + "/" + UUID + ".json"`. */
  function StoreFile(path: string, k: Key): (f: string)
    ensures f == path + ArchiveObjectKey(k)
    ensures StoreDir(path, k) + "/" <= f
  {
    StoreDir(path, k) + "/" + k.context.uuid + ".json"
  }

  /** The local files after a call, and the call's error. */
  datatype Stored = Stored(files: LocalFs.Files, status: Outcome<KeyError>)

  /**
    `store`: create the directory, open (create and truncate) the file, write
    the redacted record. A failed write leaves the file truncated.
   */
  function Store(k: Key, path: string, files: LocalFs.Files, faults: LocalFs.Faults): (r: Stored)
    ensures var dir, file := StoreDir(path, k), StoreFile(path, k);
      && (r.status.Pass? <==>
            faults(LocalFs.MkdirAll, dir).Pass? && faults(LocalFs.OpenFile, file).Pass?
            && faults(LocalFs.Write, file).Pass?)
      && (faults(LocalFs.MkdirAll, dir).Fail? ==>
            r.status == Fail(MkdirFailed(faults(LocalFs.MkdirAll, dir).error)) && r.files == files)
      && (faults(LocalFs.MkdirAll, dir).Pass? && faults(LocalFs.OpenFile, file).Fail? ==>
            r.status == Fail(OpenFailed(faults(LocalFs.OpenFile, file).error)) && r.files == files)
      && (faults(LocalFs.MkdirAll, dir).Pass? && faults(LocalFs.OpenFile, file).Pass?
          && faults(LocalFs.Write, file).Fail? ==>
            r.status == Fail(WriteFailed(faults(LocalFs.Write, file).error)) && r.files == files[file := Garbage([])])
      && (r.status.Pass? ==>
            && file in r.files && r.files[file].Json?
            && r.files[file].doc.dataKey.plain.None?
            && Unmarshal(r.files[file]) == Success(Redact(k)))
      && (forall p :: p != file ==> (p in r.files <==> p in files))
      && (forall p :: p != file && p in files ==> r.files[p] == files[p])
  {
    var dir, file := StoreDir(path, k), StoreFile(path, k);
    match faults(LocalFs.MkdirAll, dir)
    case Fail(e) => Stored(files, Fail(MkdirFailed(e)))
    case Pass =>
      match faults(LocalFs.OpenFile, file)
      case Fail(e) => Stored(files, Fail(OpenFailed(e)))
      case Pass =>
        match faults(LocalFs.Write, file)
        case Fail(e) => Stored(files[file := Garbage([])], Fail(WriteFailed(e)))
        case Pass =>
          RedactedDocument(k);
          Stored(files[file := Json(Marshal(Redact(k)))], Pass)
  }

  // ---------------------------------------------------------------- decrypt

  /** The `Decrypt` request `decrypt` builds, or the error that stops it first. */
  function DecryptRequest(k: Key, aws: Aws.Services): (r: Result<Aws.DecryptInput, KeyError>)
    ensures aws.arnRegion(k.cmkArn).Failure? ==> r == Failure(InvalidArn(aws.arnRegion(k.cmkArn).error))
    ensures aws.arnRegion(k.cmkArn).Success? && aws.config.Fail? ==> r == Failure(AwsConfig(aws.config.error))
    ensures aws.arnRegion(k.cmkArn).Success? && aws.config.Pass? ==>
              && (r == Failure(NotBase64) <==> Base64.Decode(k.dataKey.encrypted).Failure?)
              && (r.Success? <==> Base64.Decode(k.dataKey.encrypted).Success?)
    ensures r.Success? ==>
              && aws.arnRegion(k.cmkArn) == Success(r.value.region)
              && Base64.Decode(k.dataKey.encrypted) == Success(r.value.ciphertextBlob)
              && r.value.encryptionContext == ToMap(k.context)
  {
    match aws.arnRegion(k.cmkArn)
    case Failure(e) => Failure(InvalidArn(e))
    case Success(region) =>
      if aws.config.Fail? then Failure(AwsConfig(aws.config.error))
      else
        match Base64.Decode(k.dataKey.encrypted)
        case Failure(_) => Failure(NotBase64)
        case Success(b) => Success(Aws.DecryptInput(region, b, ToMap(k.context)))
  }

  /** The record after a call on its pointer receiver, and the call's error. */
  datatype Decrypted = Decrypted(key: Key, status: Outcome<KeyError>)

  /** `decrypt`: on success only `Plain` changes, to the base64 of what KMS returned. */
  function Decrypt(k: Key, aws: Aws.Services): (r: Decrypted)
    ensures DecryptRequest(k, aws).Failure? ==> r == Decrypted(k, Fail(DecryptRequest(k, aws).error))
    ensures DecryptRequest(k, aws).Success? && aws.decrypt(DecryptRequest(k, aws).value).Failure? ==>
              r == Decrypted(k, Fail(KmsCall(aws.decrypt(DecryptRequest(k, aws).value).error)))
    ensures r.status.Pass? <==>
              DecryptRequest(k, aws).Success? && aws.decrypt(DecryptRequest(k, aws).value).Success?
    ensures r.status.Pass? ==>
              && r.key.context == k.context && r.key.cmkArn == k.cmkArn
              && r.key.dataKey.encrypted == k.dataKey.encrypted
              && r.key.dataKey.created == k.dataKey.created
              && Base64.Canonical(r.key.dataKey.plain)
              && Base64.Decode(r.key.dataKey.plain) == Success(aws.decrypt(DecryptRequest(k, aws).value).value)
  {
    match DecryptRequest(k, aws)
    case Failure(e) => Decrypted(k, Fail(e))
    case Success(input) =>
      match aws.decrypt(input)
      case Failure(e) => Decrypted(k, Fail(KmsCall(e)))
      case Success(p) =>
        Base64.DecodeEncode(p);
        Base64.EncodeCanonical(p);
        Decrypted(k.(dataKey := k.dataKey.(plain := Base64.Encode(p))), Pass)
  }

  // ---------------------------------------------------------------- properties

  /**
    A record that keeps the context, ARN and ciphertext of a generated key
    (the key itself, or its stored and reloaded copy) is decrypted with exactly
    the ciphertext KMS generated and the encryption context it was bound to.
   */
  lemma DecryptMatchesGeneration(cmkArn: string, fqdn: string, production: bool, aws: Aws.Services,
                                 devUuid: Result<string, string>, now: Timestamp, k: Key, copy: Key)
    requires NewDataKey(cmkArn, fqdn, production, aws, devUuid, now) == Success(k)
    requires copy.context == k.context && copy.cmkArn == k.cmkArn
    requires copy.dataKey.encrypted == k.dataKey.encrypted
    ensures var g := GenerateRequest(aws.arnRegion(cmkArn).value, k.context, cmkArn);
      DecryptRequest(copy, aws)
        == Success(Aws.DecryptInput(g.region, aws.generateDataKey(g).value.ciphertextBlob, g.encryptionContext))
  {
  }

  /**
    A record whose context differs in any field from the one a key was
    generated under sends KMS a different encryption context.
   */
  lemma ContextBinding(copy: Key, ec: EncryptionContext, aws: Aws.Services)
    requires copy.context != ec
    requires DecryptRequest(copy, aws).Success?
    ensures DecryptRequest(copy, aws).value.encryptionContext != ToMap(ec)
  {
    var m := DecryptRequest(copy, aws).value.encryptionContext;
    if m == ToMap(ec) {
      FromMapToMap(ec);
      assert false;
    }
  }

  /** Decrypting a record whose ciphertext is not base64 fails and leaves it as it was. */
  lemma DecryptRejectsNonBase64(k: Key, aws: Aws.Services)
    requires aws.arnRegion(k.cmkArn).Success? && aws.config.Pass?
    requires !Base64.WellFormed(Base64.StripNewlines(k.dataKey.encrypted))
    ensures Decrypt(k, aws) == Decrypted(k, Fail(NotBase64))
  {
  }

  /** The archived object and the local file of a record share the `FQDN/UUID.json` suffix. */
  lemma ArchiveAndStoreAgree(k: Key, path: string)
    ensures StoreFile(path, k) == path + ArchiveObjectKey(k)
  {
  }

  /**
    With host names free of `/`, distinct volumes get distinct object keys: the
    first `/` of the key ends the host name.
   */
  lemma ArchiveObjectKeyInjective(a: Key, b: Key)
    requires '/' !in a.context.fqdn && '/' !in b.context.fqdn
    requires ArchiveObjectKey(a) == ArchiveObjectKey(b)
    ensures a.context.fqdn == b.context.fqdn && a.context.uuid == b.context.uuid
  {
    var o, fa, fb := ArchiveObjectKey(a), a.context.fqdn, b.context.fqdn;
    if |fa| != |fb| {
      assert false;
    }
    assert fa == o[..|fa|] == fb;
    assert a.context.uuid + ".json" == b.context.uuid + ".json";
    assert a.context.uuid == (a.context.uuid + ".json")[..|a.context.uuid|];
  }
}

=== FILE: localfs.dfy ===
/**
  The local filesystem as key.go and main.go use it: a map from path to file
  contents, and an oracle saying which operation on which path fails.
 */
module LocalFs {
  import opened Results
  import Record

  /** The filesystem calls made by `store` and `openDev`. */
  datatype Op = MkdirAll | OpenFile | Write | ReadFile

  type Files = map<string, Record.Blob>

  /** Whether an operation on a path fails, and with which error. */
  type Faults = (Op, string) -> Outcome<string>

  /** Why a read failed: an injected fault, or no file at the path. */
  datatype FsError = Fault(reason: string) | NotExist

  /** `ioutil.ReadFile`. */
  function Read(files: Files, faults: Faults, path: string): (r: Result<Record.Blob, FsError>)
    ensures r.Success? <==> faults(ReadFile, path).Pass? && path in files
    ensures r.Success? ==> r.value == files[path]
    ensures faults(ReadFile, path).Fail? ==> r == Failure(Fault(faults(ReadFile, path).error))
    ensures r == Failure(NotExist) <==> faults(ReadFile, path).Pass? && path !in files
  {
    match faults(ReadFile, path)
    case Fail(e) => Failure(Fault(e))
    case Pass => if path in files then Success(files[path]) else Failure(NotExist)
  }
}

=== FILE: record.dfy ===
/**
  The key record of key.go: the encryption context that binds a data key to a
  host, the data key in its plaintext and KMS-wrapped forms, and the JSON
  document the record is marshalled to. The document is modelled as a record
  whose `Plain` member is optional, following the `omitempty` tag; the byte
  layout of `json.MarshalIndent` is not modelled.
 */
module Record {
  import opened Results
  import Base64

  /** `time.Time` of the `Created` field: an instant supplied by the caller's clock. */
  datatype Timestamp = Timestamp(unixNanos: int)

  /** `encryptionContext`: the additional authenticated data of every KMS call. */
  datatype EncryptionContext = EncryptionContext(fqdn: string, production: bool, uuid: string)

  /** `dataKey`: `plain` and `encrypted` are both base64 text. */
  datatype DataKey = DataKey(plain: string, encrypted: string, created: Timestamp)

  /** `key`. */
  datatype Key = Key(context: EncryptionContext, cmkArn: string, dataKey: DataKey)

  /** `newEncryptionContext`: note that its parameters come in a different order from the fields. */
  function NewEncryptionContext(fqdn: string, uuid: string, production: bool): (e: EncryptionContext)
    ensures e.fqdn == fqdn && e.uuid == uuid && e.production == production
  {
    EncryptionContext(fqdn, production, uuid)
  }

  /** `strconv.FormatBool`. */
  function FormatBool(b: bool): string
  {
    if b then "true" else "false"
  }

  /** Reads back the two spellings `FormatBool` produces; the program never parses a bool, so this serves only `FromMap`. */
  function ParseBool(s: string): Option<bool>
  {
    if s == "true" then Some(true) else if s == "false" then Some(false) else None
  }

  /** `encryptionContext.toMap`: the map KMS receives as encryption context. */
  function ToMap(e: EncryptionContext): (m: map<string, string>)
    ensures m.Keys == {"fqdn", "production", "uuid"}
    ensures m["production"] == "true" || m["production"] == "false"
  {
    map["fqdn" := e.fqdn, "production" := FormatBool(e.production), "uuid" := e.uuid]
  }

  /** Reads a context back out of an encryption-context map; the reference inverse of `ToMap`. */
  function FromMap(m: map<string, string>): Option<EncryptionContext>
  {
    if "fqdn" in m && "production" in m && "uuid" in m && ParseBool(m["production"]).Some? then
      Some(EncryptionContext(m["fqdn"], ParseBool(m["production"]).value, m["uuid"]))
    else None
  }

  /** Every field of the context survives the map encoding. */
  lemma FromMapToMap(e: EncryptionContext)
    ensures FromMap(ToMap(e)) == Some(e)
  {
  }

  /** A map with exactly the three keys that decodes to a context is that context's map. */
  lemma ToMapFromMap(m: map<string, string>)
    requires m.Keys == {"fqdn", "production", "uuid"}
    requires FromMap(m).Some?
    ensures ToMap(FromMap(m).value) == m
  {
    var e := FromMap(m).value;
    assert m["production"] == FormatBool(e.production);
  }

  /** Distinct contexts give distinct maps, so KMS can tell them apart. */
  lemma ToMapInjective(a: EncryptionContext, b: EncryptionContext)
    requires ToMap(a) == ToMap(b)
    ensures a == b
  {
    FromMapToMap(a);
    FromMapToMap(b);
  }

  /** The key with its plaintext blanked, as `archive` and `store` do on their copy. */
  function Redact(k: Key): (r: Key)
    ensures r.dataKey.plain == ""
    ensures r.context == k.context && r.cmkArn == k.cmkArn
    ensures r.dataKey.encrypted == k.dataKey.encrypted && r.dataKey.created == k.dataKey.created
  {
    k.(dataKey := k.dataKey.(plain := ""))
  }

  lemma RedactIdempotent(k: Key)
    ensures Redact(Redact(k)) == Redact(k)
  {
  }

  // ---------------------------------------------------------------- JSON

  /** The `DataKey` JSON object; `Plain` is absent when it was empty (`omitempty`). */
  datatype DataKeyJson = DataKeyJson(plain: Option<string>, encrypted: string, created: Timestamp)

  /** The JSON object a key marshals to. */
  datatype Document = Document(encryptionContext: EncryptionContext, cmkArn: string, dataKey: DataKeyJson)

  /** The contents of a file or object: a key document, or anything `json.Unmarshal` rejects. */
  datatype Blob = Json(doc: Document) | Garbage(bytes: Base64.Bytes)

  /** `json.MarshalIndent` of a key. */
  function Marshal(k: Key): (d: Document)
    ensures d.dataKey.plain.None? <==> k.dataKey.plain == ""
  {
    var p := if k.dataKey.plain == "" then None else Some(k.dataKey.plain);
    Document(k.context, k.cmkArn, DataKeyJson(p, k.dataKey.encrypted, k.dataKey.created))
  }

  /** `json.Unmarshal` of a key document into a zero key: an absent `Plain` stays empty. */
  function FromDocument(d: Document): Key
  {
    Key(d.encryptionContext, d.cmkArn, DataKey(d.dataKey.plain.GetOr(""), d.dataKey.encrypted, d.dataKey.created))
  }

  /** The `*json.SyntaxError` of contents that are not a key document. */
  datatype JsonError = SyntaxError

  /**
    `json.Unmarshal` of file contents into a zero key: every member present sets
    its field, and a field whose member is absent keeps Go's zero value.
   */
  function Unmarshal(b: Blob): (r: Result<Key, JsonError>)
    ensures r.Failure? <==> b.Garbage?
    ensures r.Success? ==>
              && r.value.context == b.doc.encryptionContext
              && r.value.cmkArn == b.doc.cmkArn
              && r.value.dataKey.encrypted == b.doc.dataKey.encrypted
              && r.value.dataKey.created == b.doc.dataKey.created
              && (b.doc.dataKey.plain.Some? ==> r.value.dataKey.plain == b.doc.dataKey.plain.value)
              && (b.doc.dataKey.plain.None? ==> r.value.dataKey.plain == "")
  {
    match b
    case Json(d) => Success(FromDocument(d))
    case Garbage(_) => Failure(SyntaxError)
  }

  /** Marshalling loses nothing: unmarshalling gives the same key back. */
  lemma UnmarshalMarshal(k: Key)
    ensures Unmarshal(Json(Marshal(k))) == Success(k)
  {
  }

  /** A document with no explicitly empty `Plain` is what its key marshals to. */
  lemma MarshalFromDocument(d: Document)
    requires d.dataKey.plain != Some("")
    ensures Marshal(FromDocument(d)) == d
  {
  }

  /** A redacted key's document has no `Plain` member, and reads back as the redacted key. */
  lemma RedactedDocument(k: Key)
    ensures Marshal(Redact(k)).dataKey.plain.None?
    ensures Unmarshal(Json(Marshal(Redact(k)))) == Success(Redact(k))
  {
  }
}

=== FILE: results.dfy ===
/**
  Go's two ways of reporting failure. A call returning `(T, error)` is a
  `Result`; a call returning only `error` is an `Outcome`. `Option` is a value
  that may be missing, with no error attached.
 */
module Results {

  /** A value that may be missing. `:-` on an `Option` gives up on `None`. */
  datatype Option<+T> = None | Some(value: T) {

    predicate IsFailure() {
      None?
    }

    function PropagateFailure<U>(): Option<U>
      requires None?
    {
      None
    }

    function Extract(): T
      requires Some?
    {
      value
    }

    /** The value, or `zero` when it is missing: what Go leaves in a field that was never set. */
    function GetOr(zero: T): T {
      match this
      case Some(v) => v
      case None => zero
    }
  }

  /** `(T, error)`: the value when the error is nil, otherwise the error. */
  datatype Result<+T, +E> = Success(value: T) | Failure(error: E) {

    predicate IsFailure() {
      Failure?
    }

    function PropagateFailure<U>(): Result<U, E>
      requires Failure?
    {
      Failure(error)
    }

    function Extract(): T
      requires Success?
    {
      value
    }
  }

  /** `error` alone: nil is `Pass`. */
  datatype Outcome<+E> = Pass | Fail(error: E)
}
